=== FILE: README.md ===
# soteria's polkit agent core, modelled in Dafny

soteria is a polkit authentication agent. polkit calls it over D-Bus.

- **BeginAuthentication** receives a message, a cookie and the candidate identities. The agent resolves the unix-user identities to account names and announces the request to its consumer, the prompt window, as a `Started` event. It then serves the consumer's events for that cookie:
  - a cancel ends the call as cancelled;
  - a password starts an attempt against the privileged helper.
- **An attempt** reaches the helper through its socket, or by spawning the helper program when the socket is unavailable. The agent writes the handshake and then reads the helper's output line by line:
  - it answers each `Password:` prompt with the password;
  - it reports lockout notices and failures to the consumer as retries;
  - it reports `SUCCESS` as success and finishes the call.
- **CancelAuthentication** forwards polkit's cancel request to the consumer.
- **The prompt window's session state** remembers the cookie being authenticated. It owns the four signal handlers that send the user's cancel or password back, each stamped with that cookie.

Everything outside the agent is given as data:
- the consumer's channel: the events that arrive, and whether it closes;
- the account database: an oracle from uid to lookup outcome;
- what each attempt finds: whether the socket accepts a connection, whether spawning succeeds, the lines the helper prints, how its output ends (it closes, a read fails, or it stays open with nothing more to read), and how many writes it accepts.

A call produces a log of effects (events emitted, events taken, connect, spawn, writes, lines read, flush) and a result. The properties are stated over projections of that log.

Modules:
- `Wrappers`: `Option`.
- `Text`: Rust's `trim`, `starts_with`, `strip_prefix` and `contains`.
- `Events`: the messages, the errors and the effect log.
- `Identities`: name resolution.
- `Helper`: the handshake, line classification, the conversation and one attempt.
- `HelperFacts`, `AttemptFacts`: the conversation and attempt properties.
- `Agent`: the event loop and the two bus methods.
- `AgentFacts`: the call properties.
- `Session`, `SessionFacts`: `src/state.rs`.
- `Scenarios`: whole calls worked through.

Points where the code behaves differently from what a reader might expect, and which the model follows:
- A lockout notice is recognised only when its trimmed text contains both `minute` and `unlock` (src/dbus.rs:161).
- When the helper's output ends without `SUCCESS`, the agent flushes its writer and goes back to waiting for the consumer. The call does not fail (src/dbus.rs:147-197).
- When the helper's output stays open and silent, the read at src/dbus.rs:148 never returns. The call never resolves, and a cancel sent meanwhile is never taken: nothing bounds how long the agent waits for the helper.
- Every CancelAuthentication request sends its own `Canceled` event, so a repeated request is forwarded again (src/dbus.rs:40-48).
- The consumer's events are one type, `UserEvent`, with the constructors `UserCanceled` and `ProvidedPassword`. The first is the name used in `src/state.rs`; the second is the name used in `src/dbus.rs`. The prompt window's `UserProvidedPassword` (src/state.rs:136) is that same `ProvidedPassword` event. The enum in `src/events.rs` has other names and is not used by the core.

## Model

| member | source | states |
|---|---|---|
| Identities.NameOf | src/dbus.rs:63-74 | An identity yields a name exactly when it is a `unix-user` whose `uid` detail is a `U32` that the account database knows under a UTF-8 name, and the name is that account's name |
| Identities.ResolveNamesSelects | src/dbus.rs:62-75 | The resolved names are exactly the names of the identities that have one, in request order: a strictly increasing choice of positions picks precisely those identities, and nothing is aborted for an identity without a name |
| Identities.ResolveNamesAppend | src/dbus.rs:63-75 | Resolving a concatenation of identity lists resolves each part and concatenates the names |
| Identities.SkippedIdentity | src/dbus.rs:65-73 | An identity without a name contributes nothing to the names, wherever it stands in the list |
| Identities.ResolveNamesAsWritten | src/dbus.rs:62-75 | The loop as written panics only at a `unix-user` identity that lacks a `uid` detail |
| Identities.AsWrittenAgrees | src/dbus.rs:62-75 | When every `unix-user` identity carries a uid, the loop as written gives exactly the corrected names. Otherwise it panics |
| Identities.MissingUidPanics | src/dbus.rs:66-68 | A single `unix-user` identity with no details makes the loop as written panic, where the corrected resolution returns no names |
| Agent.BeginAuthentication | src/dbus.rs:77-84 | With the consumer gone, the call fails with "Failed to send data." and does nothing else. Otherwise its first effect is the `Started` announcement with the cookie, the message and the resolved names |
| Agent.Relevant | src/dbus.rs:90-102 | The events the loop acts on are drawn from the inbox and each carries the call's cookie. Every inbox event that carries the cookie is among them |
| AgentFacts.RelevantPicks | src/dbus.rs:86-102 | The events the loop acts on are exactly the inbox's events for the call's cookie, in arrival order: a strictly increasing choice of positions picks precisely those events |
| Agent.CancelAuthentication | src/dbus.rs:40-48 | A cancel request is forwarded as exactly one `Canceled` event for its cookie, with nothing written to any helper. It panics exactly when the consumer is gone |
| AgentFacts.CancelTwice | src/dbus.rs:40-48 | Two cancel requests for one cookie reach the consumer as two `Canceled` events: nothing deduplicates them |
| AgentFacts.ForeignEventsIgnored | src/dbus.rs:86-102 | Consumer events for other cookies are taken and dropped. The call resolves, and does everything apart from taking them, as if only this cookie's events had arrived |
| AgentFacts.NothingForCookie | src/dbus.rs:86-89 | With no event for this cookie, the call keeps waiting, or fails with "Failed to recieve data. channel closed" once the channel closes. Either way it has emitted, written and read nothing |
| AgentFacts.CancelResolves | src/dbus.rs:90-96 | If this cookie's first event is a cancel, the call fails as cancelled with "User cancelled the authentication." and emits, writes and reads nothing |
| AgentFacts.CleanEndsKeepWaiting | src/dbus.rs:86-198 | A clean end of the helper's output is not an error. When every attempt reaches a helper that prints no `SUCCESS` and ends its output cleanly, the call keeps waiting (or fails because the channel closed), or is cancelled; it never resolves `Ok` and never fails with an I/O error |
| AgentFacts.StalledAttemptBlocks | src/dbus.rs:97-148 | A password whose helper prints no `SUCCESS` and then keeps its output open without writing blocks the call for good. The call never resolves, the password is the last event taken from the channel, and whatever is queued behind it, a cancel for this cookie included, changes nothing |
| AgentFacts.AnnouncesAsWrittenNames | src/dbus.rs:62-84 | The loop as written avoids the panic exactly when every `unix-user` identity carries a uid. In that case the call announces exactly the names that loop computes |
| AgentFacts.LoopEvents | src/dbus.rs:86-202 | Every event the loop emits is a retry with a message or a success for the call's cookie. Success is emitted exactly when the call resolves `Ok`, and then it is the loop's last effect |
| AgentFacts.CallEvents | src/dbus.rs:50-202 | A call with a live consumer emits `Started` first, then only retries and success for the same cookie. It resolves `Ok` exactly when it reports success, and nothing follows the success |
| Helper.Handshake | src/dbus.rs:109-143 | Over the socket the agent writes the user and the cookie, each newline-terminated. A spawned helper gets only the cookie line |
| Helper.SocketHandshakeRoundTrip | src/dbus.rs:109-117 | The helper reads the socket handshake back as exactly the user line and then the cookie line, provided neither contains a newline |
| Helper.SpawnHandshakeRoundTrip | src/dbus.rs:118-143 | A spawned helper reads exactly the cookie line back from its standard input |
| Helper.Open | src/dbus.rs:103-130 | The socket is used exactly when it accepts a connection. Otherwise the helper program is spawned with the user as its only argument and `LC_ALL=C`. If spawning fails, the attempt fails with the spawn error |
| Helper.Classify | src/dbus.rs:150-185 | A line is a prompt, an info line, `FAILURE` or `SUCCESS` exactly when it starts with that prefix. A prompt or info line is its prefix followed by the text the agent inspects |
| Helper.LockoutOf | src/dbus.rs:157-161 | An info line is a lockout notice exactly when its trimmed text contains both `minute` and `unlock`. The notice is that trimmed text |
| Helper.WriteChunks | src/dbus.rs:112-155 | A run of `write_all` calls goes through in full when the helper accepts them all. Otherwise it stops after the accepted prefix and fails |
| Helper.StepLine | src/dbus.rs:148-195 | One line: a `Password:` prompt (trimmed) is answered with the password and a newline and emits nothing; a lockout notice is remembered and reported; `FAILURE` reports the remembered notice or the fallback text; `SUCCESS` reports success and stops. A failed reply write stops with an I/O error |
| Helper.Converse | src/dbus.rs:145-198 | A conversation emits only retries with a message and success for its cookie. Success is emitted exactly when it is authorized, and is then its last effect |
| Helper.StepProjections | src/dbus.rs:148-195 | A step's log reads exactly its line, writes exactly its replies and emits exactly its events |
| HelperFacts.FirstSuccess | src/dbus.rs:185-195 | The first `SUCCESS` line is found, with no `SUCCESS` before it, or there is none at all |
| HelperFacts.HealthyConversation | src/dbus.rs:145-198 | Against a helper that accepts every write, the agent reads the lines up to and including the first `SUCCESS` (all of them if there is none) and writes one password line per `Password:` prompt among them. It stops authorized at `SUCCESS`; otherwise it returns to waiting at a clean end of output, fails with an I/O error on a read error, or blocks for good in the next read when the output stays open |
| HelperFacts.ConverseTakesNothing | src/dbus.rs:145-198 | Reading the helper's output and answering it takes no event from the consumer's channel |
| HelperFacts.RepliesRepeat | src/dbus.rs:150-156 | The replies to a run of lines are the password and a newline repeated once per `Password:` prompt, and nothing else |
| HelperFacts.ConversationEvents | src/dbus.rs:145-184 | Against a helper that accepts every write, the events of its conversation equal an independent per-line reference: line j reports success, its own lockout notice, or for `FAILURE` the latest lockout notice before line j or else the fallback text. Reporting stops after the first `SUCCESS` |
| AttemptFacts.HealthyAttempt | src/dbus.rs:103-198 | An attempt that reaches a helper accepting every write: it opens first, writes the handshake and then one password line per prompt read, reads up to the first `SUCCESS`, emits the reference events, and stops as the conversation does |
| AttemptFacts.HandshakeBeforeReads | src/dbus.rs:103-148 | Whatever the helper does, no helper line is read before the whole handshake for the transport in use has been written. Any prefix of an attempt's log that has read a line has reached the helper, and its writes begin with the complete handshake |
| AttemptFacts.AttemptEvents | src/dbus.rs:103-198 | Any attempt, including one whose writes fail, emits only retries and success for its cookie. Success is emitted exactly when it is authorized, and is then its last effect |
| AttemptFacts.AttemptTakesNothing | src/dbus.rs:103-198 | Whatever the helper does, an attempt takes no event from the consumer's channel: a cancel or another password sent meanwhile waits there |
| AttemptFacts.HelperReads | src/dbus.rs:109-156 | What a healthy helper reads from the agent, line by line, is the handshake (user and cookie, or the cookie alone when spawned) followed by the password once per prompt answered, provided the user, the cookie and the password contain no newline |
| Session.New | src/state.rs:41-61 | A new state has no cookie and no handlers, and keeps the widgets it was given |
| Session.Start | src/state.rs:63-155 | Starting remembers the cookie and appends four connections under fresh ids. Each handler serves one of the four signals and captures the cookie. Earlier connections and the widgets' contents are untouched, and the result is always `true` |
| Session.Disconnect | src/state.rs:161-176 | Disconnecting keeps exactly the connections whose id is not among the session's ids |
| Session.End | src/state.rs:157-180 | Ending another cookie's session, or ending with none active, changes nothing. Ending the current one hides the window, removes exactly the session's four handlers and forgets the cookie and its ids |
| Session.RunHandler | src/state.rs:66-145 | Each handler sends one event carrying its captured cookie and clears the entry. Confirm sends the selected user and the entered text; the other handlers send a cancel. It panics exactly when nobody listens, or on confirm with no user selected |
| SessionFacts.NewTidy | src/state.rs:41-61 | A new state with no connections is tidy: no session and no handlers |
| SessionFacts.StartTidy | src/state.rs:63-155 | From a tidy state (every earlier start paired with an end) with no session active, starting leaves exactly the new session's four handlers, stamped with its cookie |
| SessionFacts.EndTidy | src/state.rs:157-180 | Ending any cookie keeps the state tidy. Ending the current session leaves no handler connected |
| SessionFacts.FireTidy | src/state.rs:66-145 | Firing a signal changes no connection, so it keeps the state tidy |
| SessionFacts.FireInSession | src/state.rs:66-145 | In a tidy session, a signal runs its one handler. Confirm sends the selected user and the entered password; every other signal sends a cancel; each is stamped with the session's cookie. The entry is cleared, and both buttons hide the window |
| SessionFacts.FireIdle | src/state.rs:157-180 | From a tidy state (every start paired with an end) with no session active, no signal sends anything |
| SessionFacts.QuietAfterEnd | src/state.rs:63-180 | From a tidy state with no session active, once a session has been started and ended (a paired start and end), no signal sends anything |
| SessionFacts.EndIdempotent | src/state.rs:157-180 | Ending a cookie twice is the same as ending it once |
| SessionFacts.TwoSessions | src/state.rs:28-31 | Starting a second session without ending the first leaves both sessions' handlers connected, under distinct ids |
| SessionFacts.StaleConfirm | src/state.rs:120-145 | With an unpaired earlier session, a confirm click sends the password for the earlier cookie first, then an empty password for the later one |
| SessionFacts.EndSecondLeavesFirst | src/state.rs:157-180 | Ending the later of two unpaired sessions leaves the earlier session's handlers connected |
| SessionFacts.StaleCancel | src/state.rs:102-118 | After an unpaired second session ends, no session is active, yet a cancel click still sends a cancel for the first session's cookie |
| Text.Trim | src/dbus.rs:152-158 | Trimming removes whitespace from both ends: the result is a contiguous slice of the input, everything cut away is whitespace, and the result neither starts nor ends with whitespace |
| Text.TrimIdempotent | src/dbus.rs:152-158 | Trimming a trimmed text changes nothing |
| Text.ContainsIffOccurs | src/dbus.rs:161 | The substring test holds exactly when the pattern occurs at some position of the text |
| Scenarios.InfoThenFailure | src/dbus.rs:157-184 | An info line then `FAILURE`: if the trimmed text has both `minute` and `unlock`, the notice is reported twice, once at once and once with the failure. Otherwise only the fallback retry is reported, so a notice without the word `unlock` is not shown |
| Scenarios.PromptSuccessAttempt | src/dbus.rs:103-195 | Against the socket, a prompt followed by `SUCCESS` writes the user, the cookie and the password, each on its own line, reports only success, and is authorized |
| Scenarios.PromptingHelperCall | src/dbus.rs:50-202 | A call whose consumer first sends a password for another request and then this one's: the foreign password is dropped, the helper gets the user, cookie and password lines, and the call emits `Started` then success and resolves `Ok` |
| Scenarios.ExampleCall | src/dbus.rs:50-202 | The same call with the helper's actual lines: the prompt `PAM_PROMPT_ECHO_OFF Password:`, whose text after the prefix is trimmed before it is compared, and `SUCCESS` |

## Left out

- Asynchrony and the bus transport: a call is modelled as a function of the data its environment supplies. Every `await` is a step in the effect log.
- The `tracing` log lines: they have no effect on behaviour.
- `gettext`: the fallback retry text is kept as its untranslated message id.
- `action_id`, `icon_name` and `details` of BeginAuthentication are only logged. The model does not take them.
- Partial writes: a helper's end accepts or refuses whole `write_all` calls, counted by `room`. An empty `write_all` (an empty password) also uses one unit of `room`, and can be refused, although Rust's `write_all` of an empty buffer always succeeds. Since `room` only stands for the point where the pipe breaks, this shifts which call the break falls on; it adds no outcome a helper could not produce.
- `writer.flush()` is modelled as infallible. Flushing a Unix socket write half or a child's stdin does nothing.
- A consumer that goes away in the middle of a call: the later sends `unwrap` and would panic. The model assumes the consumer stays alive once `Started` has been sent.
- "Child did not have stdin." / "Child did not have stdout." (src/dbus.rs:132-137) cannot happen after spawning with piped stdin and stdout, so the model does not include them.
- The conversion of an I/O error into a bus error (`PolkitError` from `std::io::Error`) lives outside the core. The model keeps the error as `Io(op)`.
- GTK's own behaviour after the handlers run: what `Propagation::Proceed` and `hide-on-close` then do to the window is not modelled. The `dynamic_cast` of the selected item is assumed to succeed.
- crate::authority, src/main.rs, src/ui.rs, src/config.rs and build.rs are not part of this model. Registering with polkit, building the window and reading the helper path are outside the core; the helper path is a parameter.
- src/events.rs is not part of this model. Its enum is not used by the core.
- Session.Start: unpaired starts are not prevented. The source leaves pairing `start_authentication` with `end_authentication` to its callers (src/state.rs:28-31). The tidiness lemmas (`StartTidy`, `FireIdle`, `QuietAfterEnd` and the others that require `Tidy`) assume it, and `TwoSessions`, `StaleConfirm` and `StaleCancel` show what happens without it.
- Agent.BeginAuthentication: resolves names with the corrected `Identities.ResolveNames`. The code as written panics at `details["uid"]` before anything is sent when a `unix-user` identity has no `uid` detail (see Findings). There the model instead announces the request without that identity's name. `AgentFacts.AnnouncesAsWrittenNames` shows that the model agrees with the code on every other input.

## Findings

| source | as written | input that shows it | evidently intended | confidence | as-written member | corrected member |
|---|---|---|---|---|---|---|
| src/dbus.rs:66-68 | `details["uid"]` indexes the details map, which panics when the key is absent | one identity of kind `unix-user` whose details have no `uid` entry | skip that identity, as the `let ... else { continue }` does for a uid that is not a `U32` | high, not executed | Identities.ResolveNamesAsWritten (shown by Identities.MissingUidPanics and Identities.AsWrittenAgrees) | Identities.ResolveNames (proved by Identities.ResolveNamesSelects) |

=== FILE: agent.dfy ===
/**
 * The polkit authentication agent's bus methods: BeginAuthentication
 * announces the request to its consumer, then serves the consumer's
 * events for its cookie until one resolves the call; CancelAuthentication
 * forwards polkit's cancel request to the consumer.
 *
 * The consumer's channel is given as data: the events that arrive, in
 * order, and whether the channel then closes. Each password attempt finds
 * the helper in the state `helpers.env(n)` describes, `n` counting the
 * attempts of the call from zero.
 */
module Agent {
  import opened Wrappers
  import opened Events
  import opened Identities
  import opened Helper

  const SendFailed := "Failed to send data."
  const ChannelClosed := "Failed to recieve data. channel closed"
  const UserCancelledReason := "User cancelled the authentication."

  /** The consumer as the agent sees it. */
  datatype Consumer = Consumer(
    alive: bool,               // its end of the event channel still exists
    inbox: seq<UserEvent>,     // what it sends, in arrival order
    closed: bool)              // whether its channel closes after `inbox`

  /** The configured helper program and what each attempt finds. */
  datatype Helpers = Helpers(path: string, env: nat -> AttemptEnv)

  /**
   * How a call resolves: `Ok(())`, an error, still awaiting the consumer,
   * or never, blocked reading a helper whose output stays open and silent.
   */
  datatype CallResult = Ok | Err(err: PolkitError) | Waiting | Hung

  datatype Call = Call(effects: seq<Effect>, result: CallResult)

  function Prepend(effects: seq<Effect>, c: Call): Call {
    Call(effects + c.effects, c.result)
  }

  /**
   * The consumer events addressed to `cookie`, in order: every event of the
   * inbox that carries the cookie, and nothing else.
   */
  function Relevant(inbox: seq<UserEvent>, cookie: string): (r: seq<UserEvent>)
    ensures |r| <= |inbox|
    ensures forall e :: e in r ==> e in inbox && e.Cookie() == cookie
    ensures forall i :: 0 <= i < |inbox| && inbox[i].Cookie() == cookie ==> inbox[i] in r
  {
    if inbox == [] then []
    else
      assert forall i :: 1 <= i < |inbox| ==> inbox[i] == inbox[1..][i - 1];
      (if inbox[0].Cookie() == cookie then [inbox[0]] else []) + Relevant(inbox[1..], cookie)
  }

  /**
   * Serve the consumer's events from `inbox` on. Events for another
   * cookie are taken and dropped; a cancel for this cookie resolves the
   * call as cancelled; a password for it runs attempt number `attempt`,
   * whose success or error resolves the call, whose clean end of output
   * goes back to waiting, and whose silent open output blocks the call for
   * good, leaving the rest of the inbox untaken. A channel that closes
   * fails the call.
   */
  function EventLoop(inbox: seq<UserEvent>, closed: bool, helpers: Helpers, cookie: string, attempt: nat): Call
    decreases |inbox|
  {
    if inbox == [] then
      if closed then Call([], Err(Failed(ChannelClosed))) else Call([], Waiting)
    else
      var e := inbox[0];
      var taken := [Receive(e)];
      if e.Cookie() != cookie then Prepend(taken, EventLoop(inbox[1..], closed, helpers, cookie, attempt))
      else
        match e
        case UserCanceled(_) => Call(taken, Err(Cancelled(UserCancelledReason)))
        case ProvidedPassword(_, user, password) =>
          var a := Attempt(helpers.env(attempt), user, password, cookie, helpers.path);
          match a.stop
          case Authorized => Call(taken + a.effects, Ok)
          case Broken(err) => Call(taken + a.effects, Err(err))
          case Stalled => Call(taken + a.effects, Hung)
          case StreamEnded => Prepend(taken + a.effects, EventLoop(inbox[1..], closed, helpers, cookie, attempt + 1))
  }

  /**
   * BeginAuthentication: resolve the display names of the identities,
   * announce the request, then serve the consumer's events. If the
   * consumer is gone the announcement fails and the call fails at once.
   */
  function BeginAuthentication(consumer: Consumer, passwd: Passwd, helpers: Helpers,
                               message: string, cookie: string, identities: seq<Identity>): (c: Call)
    ensures !consumer.alive ==> c == Call([], Err(Failed(SendFailed)))
    ensures consumer.alive ==>
      c.effects != [] && c.effects[0] == Emit(Started(cookie, message, ResolveNames(identities, passwd)))
  {
    var names := ResolveNames(identities, passwd);
    if !consumer.alive then Call([], Err(Failed(SendFailed)))
    else Prepend([Emit(Started(cookie, message, names))], EventLoop(consumer.inbox, consumer.closed, helpers, cookie, 0))
  }

  /** How an attempt that does not go back to the consumer resolves the call. */
  function Outcome(stop: Stop): CallResult
    requires stop != StreamEnded
  {
    match stop
    case Authorized => Ok
    case Broken(err) => Err(err)
    case Stalled => Hung
  }

  /** CancelAuthentication forwards the request, or panics if the consumer is gone. */
  datatype Forwarded = Forwarded(effects: seq<Effect>) | SendPanicked

  function CancelAuthentication(cookie: string, consumerAlive: bool): (r: Forwarded)
    ensures r.Forwarded? <==> consumerAlive
    ensures r.Forwarded? ==> Emitted(r.effects) == [Canceled(cookie)] && Written(r.effects) == []
  {
    if consumerAlive then Forwarded([Emit(Canceled(cookie))]) else SendPanicked
  }
}

=== FILE: agent_facts.dfy ===
/**
 * What a BeginAuthentication call does with the consumer's events: events
 * for other cookies change nothing, a cancel resolves the call, a closed
 * channel fails it, and the events it emits all belong to its cookie, with
 * success reported exactly when the call succeeds, as its last effect.
 */
module AgentFacts {
  import opened Wrappers
  import opened Events
  import opened Identities
  import opened Helper
  import opened HelperFacts
  import opened AttemptFacts
  import opened Agent

  // ---------------------------------------------------------------------
  // The events a call acts on

  /**
   * `idx` picks, in increasing order, exactly the positions of `inbox`
   * whose event carries `cookie`, and `r` lists those events.
   */
  predicate Picks(inbox: seq<UserEvent>, cookie: string, r: seq<UserEvent>, idx: seq<nat>) {
    && StrictlyIncreasing(idx)
    && |idx| == |r|
    && (forall k :: 0 <= k < |idx| ==> idx[k] < |inbox| && inbox[idx[k]] == r[k])
    && (forall i :: 0 <= i < |inbox| ==> (inbox[i].Cookie() == cookie <==> i in idx))
  }

  /** A pick for the tail, shifted one place, picks for the whole inbox when the head is another cookie's. */
  lemma ShiftedPicks(inbox: seq<UserEvent>, cookie: string, r: seq<UserEvent>, tail: seq<nat>)
    requires inbox != [] && inbox[0].Cookie() != cookie
    requires Picks(inbox[1..], cookie, r, tail)
    ensures Picks(inbox, cookie, r, Shift(tail))
  {
    var shifted := Shift(tail);
    forall k | 0 <= k < |shifted|
      ensures shifted[k] < |inbox| && inbox[shifted[k]] == r[k]
    {
      assert inbox[shifted[k]] == inbox[1..][tail[k]];
    }
    forall i | 0 <= i < |inbox|
      ensures inbox[i].Cookie() == cookie <==> i in shifted
    {
      if i > 0 {
        assert inbox[i] == inbox[1..][i - 1];
        assert (i - 1) + 1 == i;
      }
    }
  }

  /** A pick for the tail, shifted, picks for the whole inbox after a head for this cookie. */
  lemma ConsPicks(inbox: seq<UserEvent>, cookie: string, r: seq<UserEvent>, tail: seq<nat>)
    requires inbox != [] && inbox[0].Cookie() == cookie
    requires Picks(inbox[1..], cookie, r, tail)
    ensures Picks(inbox, cookie, [inbox[0]] + r, [0] + Shift(tail))
  {
    ConsIncreasing(tail);
    ConsPicked(inbox, cookie, r, tail);
    ConsPickedPositions(inbox, cookie, r, tail);
  }

  lemma ConsPicked(inbox: seq<UserEvent>, cookie: string, r: seq<UserEvent>, tail: seq<nat>)
    requires inbox != [] && Picks(inbox[1..], cookie, r, tail)
    ensures forall k :: 0 <= k < 1 + |tail| ==>
      ([0] + Shift(tail))[k] < |inbox| && inbox[([0] + Shift(tail))[k]] == ([inbox[0]] + r)[k]
  {
    var shifted := Shift(tail);
    var idx := [0] + shifted;
    var all := [inbox[0]] + r;
    forall k | 0 <= k < |idx|
      ensures idx[k] < |inbox| && inbox[idx[k]] == all[k]
    {
      if k > 0 {
        assert idx[k] == shifted[k - 1] == tail[k - 1] + 1;
        assert all[k] == r[k - 1];
        assert inbox[idx[k]] == inbox[1..][tail[k - 1]];
      }
    }
  }

  lemma ConsPickedPositions(inbox: seq<UserEvent>, cookie: string, r: seq<UserEvent>, tail: seq<nat>)
    requires inbox != [] && inbox[0].Cookie() == cookie
    requires Picks(inbox[1..], cookie, r, tail)
    ensures forall i :: 0 <= i < |inbox| ==> (inbox[i].Cookie() == cookie <==> i in [0] + Shift(tail))
  {
    var shifted := Shift(tail);
    var idx := [0] + shifted;
    forall i | 0 <= i < |inbox|
      ensures inbox[i].Cookie() == cookie <==> i in idx
    {
      if i == 0 {
        assert idx[0] == 0;
      } else {
        assert inbox[i] == inbox[1..][i - 1];
        assert (i - 1) + 1 == i;
        assert i in idx <==> i in shifted;
      }
    }
  }

  /**
   * The events a call acts on are exactly the inbox's events for its
   * cookie, in arrival order: an increasing choice of positions picks
   * precisely those events.
   */
  lemma {:induction false} RelevantPicks(inbox: seq<UserEvent>, cookie: string) returns (idx: seq<nat>)
    ensures Picks(inbox, cookie, Relevant(inbox, cookie), idx)
  {
    if inbox == [] {
      idx := [];
    } else {
      var tail := RelevantPicks(inbox[1..], cookie);
      RelevantCons(inbox, cookie);
      if inbox[0].Cookie() == cookie {
        ConsPicks(inbox, cookie, Relevant(inbox[1..], cookie), tail);
        idx := [0] + Shift(tail);
      } else {
        assert Relevant(inbox, cookie) == Relevant(inbox[1..], cookie);
        ShiftedPicks(inbox, cookie, Relevant(inbox[1..], cookie), tail);
        idx := Shift(tail);
      }
    }
  }

  // ---------------------------------------------------------------------
  // Small steps

  lemma RelevantCons(inbox: seq<UserEvent>, cookie: string)
    requires inbox != []
    ensures Relevant(inbox, cookie)
         == (if inbox[0].Cookie() == cookie then [inbox[0]] else []) + Relevant(inbox[1..], cookie)
  {
  }

  lemma ReceiveInvisible(e: UserEvent, log: seq<Effect>)
    ensures WithoutReceives([Receive(e)] + log) == WithoutReceives(log)
    ensures Emitted([Receive(e)] + log) == Emitted(log)
    ensures Written([Receive(e)] + log) == Written(log)
  {
    ProjectionsAppend([Receive(e)], log);
  }

  /** The loop on an event for another cookie: take it and carry on unchanged. */
  lemma ForeignStep(inbox: seq<UserEvent>, closed: bool, helpers: Helpers, cookie: string, attempt: nat)
    requires inbox != [] && inbox[0].Cookie() != cookie
    ensures EventLoop(inbox, closed, helpers, cookie, attempt)
         == Prepend([Receive(inbox[0])], EventLoop(inbox[1..], closed, helpers, cookie, attempt))
  {
  }

  /** The loop on a password for this cookie whose attempt ends cleanly. */
  lemma RetryStep(inbox: seq<UserEvent>, closed: bool, helpers: Helpers, cookie: string, attempt: nat)
    requires inbox != [] && inbox[0].ProvidedPassword? && inbox[0].cookie == cookie
    requires Attempt(helpers.env(attempt), inbox[0].username, inbox[0].password, cookie, helpers.path).stop == StreamEnded
    ensures var a := Attempt(helpers.env(attempt), inbox[0].username, inbox[0].password, cookie, helpers.path);
      EventLoop(inbox, closed, helpers, cookie, attempt)
      == Prepend([Receive(inbox[0])] + a.effects, EventLoop(inbox[1..], closed, helpers, cookie, attempt + 1))
  {
  }

  /** The loop on an event for this cookie that resolves the call: both inboxes agree on it. */
  lemma ResolvingStep(e: UserEvent, rest: seq<UserEvent>, other: seq<UserEvent>, closed: bool, helpers: Helpers,
                      cookie: string, attempt: nat)
    requires e.Cookie() == cookie
    requires e.ProvidedPassword? ==>
      Attempt(helpers.env(attempt), e.username, e.password, cookie, helpers.path).stop != StreamEnded
    ensures EventLoop([e] + rest, closed, helpers, cookie, attempt) == EventLoop([e] + other, closed, helpers, cookie, attempt)
  {
    ConsParts(e, rest);
    ConsParts(e, other);
  }

  // ---------------------------------------------------------------------
  // Events for other cookies

  /** Two runs of the loop resolve alike and do the same apart from taking events. */
  predicate Agree(c: Call, d: Call) {
    c.result == d.result && WithoutReceives(c.effects) == WithoutReceives(d.effects)
  }

  lemma ForeignCase(inbox: seq<UserEvent>, closed: bool, helpers: Helpers, cookie: string, attempt: nat)
    requires inbox != [] && inbox[0].Cookie() != cookie
    requires Agree(EventLoop(inbox[1..], closed, helpers, cookie, attempt),
                   EventLoop(Relevant(inbox[1..], cookie), closed, helpers, cookie, attempt))
    ensures Agree(EventLoop(inbox, closed, helpers, cookie, attempt),
                  EventLoop(Relevant(inbox, cookie), closed, helpers, cookie, attempt))
  {
    RelevantCons(inbox, cookie);
    EmptyThen(Relevant(inbox[1..], cookie));
    ForeignStep(inbox, closed, helpers, cookie, attempt);
    ReceiveInvisible(inbox[0], EventLoop(inbox[1..], closed, helpers, cookie, attempt).effects);
  }

  lemma RetryCase(inbox: seq<UserEvent>, closed: bool, helpers: Helpers, cookie: string, attempt: nat)
    requires inbox != [] && inbox[0].ProvidedPassword? && inbox[0].cookie == cookie
    requires Attempt(helpers.env(attempt), inbox[0].username, inbox[0].password, cookie, helpers.path).stop == StreamEnded
    requires Agree(EventLoop(inbox[1..], closed, helpers, cookie, attempt + 1),
                   EventLoop(Relevant(inbox[1..], cookie), closed, helpers, cookie, attempt + 1))
    ensures Agree(EventLoop(inbox, closed, helpers, cookie, attempt),
                  EventLoop(Relevant(inbox, cookie), closed, helpers, cookie, attempt))
  {
    var e := inbox[0];
    var r := Relevant(inbox[1..], cookie);
    var a := Attempt(helpers.env(attempt), e.username, e.password, cookie, helpers.path);
    RelevantCons(inbox, cookie);
    ConsParts(e, r);
    RetryStep(inbox, closed, helpers, cookie, attempt);
    RetryStep([e] + r, closed, helpers, cookie, attempt);
    WithoutReceivesAppend([Receive(e)] + a.effects, EventLoop(inbox[1..], closed, helpers, cookie, attempt + 1).effects);
    WithoutReceivesAppend([Receive(e)] + a.effects, EventLoop(r, closed, helpers, cookie, attempt + 1).effects);
  }

  lemma ResolvingCase(inbox: seq<UserEvent>, closed: bool, helpers: Helpers, cookie: string, attempt: nat)
    requires inbox != [] && inbox[0].Cookie() == cookie
    requires inbox[0].ProvidedPassword? ==>
      Attempt(helpers.env(attempt), inbox[0].username, inbox[0].password, cookie, helpers.path).stop != StreamEnded
    ensures Agree(EventLoop(inbox, closed, helpers, cookie, attempt),
                  EventLoop(Relevant(inbox, cookie), closed, helpers, cookie, attempt))
  {
    RelevantCons(inbox, cookie);
    ConsParts(inbox[0], inbox[1..]);
    assert inbox == [inbox[0]] + inbox[1..];
    ResolvingStep(inbox[0], inbox[1..], Relevant(inbox[1..], cookie), closed, helpers, cookie, attempt);
  }

  /**
   * Events addressed to other cookies are taken from the channel and have
   * no other effect: the call resolves as it would if only this cookie's
   * events had arrived, and does the same apart from taking the others.
   */
  lemma {:induction false} ForeignEventsIgnored(inbox: seq<UserEvent>, closed: bool, helpers: Helpers,
                                                cookie: string, attempt: nat)
    ensures var c := EventLoop(inbox, closed, helpers, cookie, attempt);
      var d := EventLoop(Relevant(inbox, cookie), closed, helpers, cookie, attempt);
      c.result == d.result && WithoutReceives(c.effects) == WithoutReceives(d.effects)
    decreases |inbox|
  {
    if inbox != [] {
      var e := inbox[0];
      if e.Cookie() != cookie {
        ForeignEventsIgnored(inbox[1..], closed, helpers, cookie, attempt);
        ForeignCase(inbox, closed, helpers, cookie, attempt);
      } else if e.ProvidedPassword? &&
                Attempt(helpers.env(attempt), e.username, e.password, cookie, helpers.path).stop == StreamEnded {
        ForeignEventsIgnored(inbox[1..], closed, helpers, cookie, attempt + 1);
        RetryCase(inbox, closed, helpers, cookie, attempt);
      } else {
        ResolvingCase(inbox, closed, helpers, cookie, attempt);
      }
    }
  }

  /** With nothing for this cookie, the call waits, or fails once the channel closes, having done nothing visible. */
  lemma NothingForCookie(inbox: seq<UserEvent>, closed: bool, helpers: Helpers, cookie: string, attempt: nat)
    requires Relevant(inbox, cookie) == []
    ensures var c := EventLoop(inbox, closed, helpers, cookie, attempt);
      && c.result == (if closed then Err(Failed(ChannelClosed)) else Waiting)
      && WithoutReceives(c.effects) == []
  {
    ForeignEventsIgnored(inbox, closed, helpers, cookie, attempt);
  }

  /** If this cookie's first event is a cancel, the call is cancelled without writing or emitting anything. */
  lemma CancelResolves(inbox: seq<UserEvent>, closed: bool, helpers: Helpers, cookie: string, attempt: nat)
    requires Relevant(inbox, cookie) != [] && Relevant(inbox, cookie)[0].UserCanceled?
    ensures var c := EventLoop(inbox, closed, helpers, cookie, attempt);
      && c.result == Err(Cancelled(UserCancelledReason))
      && WithoutReceives(c.effects) == []
  {
    var r := Relevant(inbox, cookie);
    assert r[0] in r;
    ForeignEventsIgnored(inbox, closed, helpers, cookie, attempt);
    assert WithoutReceives([Receive(r[0])]) == [];
  }

  // ---------------------------------------------------------------------
  // The events of a call

  /** A retry or a success for `cookie`. */
  predicate AllConversationEvents(events: seq<AgentEvent>, cookie: string) {
    forall e :: e in events ==> ConversationEvent(e, cookie)
  }

  lemma ConcatConversationEvents(a: seq<AgentEvent>, b: seq<AgentEvent>, cookie: string)
    requires AllConversationEvents(a, cookie) && AllConversationEvents(b, cookie)
    ensures AllConversationEvents(a + b, cookie)
  {
  }

  lemma RetryStepEvents(taken: UserEvent, a: Conversation, rest: Call, cookie: string)
    requires a.stop == StreamEnded
    requires AllConversationEvents(Emitted(a.effects), cookie)
    requires AuthorizationSucceeded(cookie) !in Emitted(a.effects)
    requires AllConversationEvents(Emitted(rest.effects), cookie)
    ensures var c := Prepend([Receive(taken)] + a.effects, rest);
      && Emitted(c.effects) == Emitted(a.effects) + Emitted(rest.effects)
      && AllConversationEvents(Emitted(c.effects), cookie)
      && (AuthorizationSucceeded(cookie) in Emitted(c.effects) <==> AuthorizationSucceeded(cookie) in Emitted(rest.effects))
  {
    ReceiveInvisible(taken, a.effects);
    EmittedAppend([Receive(taken)] + a.effects, rest.effects);
    ConcatConversationEvents(Emitted(a.effects), Emitted(rest.effects), cookie);
  }

  /**
   * The loop's reporting discipline: every event is a retry or success for
   * `cookie`, success is emitted exactly when the call resolves `Ok`, and
   * then it is the call's last effect.
   */
  predicate Reports(c: Call, cookie: string) {
    && AllConversationEvents(Emitted(c.effects), cookie)
    && (AuthorizationSucceeded(cookie) in Emitted(c.effects) <==> c.result == Ok)
    && (c.result == Ok ==> c.effects != [] && c.effects[|c.effects| - 1] == Emit(AuthorizationSucceeded(cookie)))
  }

  lemma ReportsAfterTaking(e: UserEvent, c: Call, cookie: string)
    requires Reports(c, cookie)
    ensures Reports(Prepend([Receive(e)], c), cookie)
  {
    ReceiveInvisible(e, c.effects);
    if c.result == Ok {
      LastOfAppend([Receive(e)], c.effects);
    }
  }

  lemma ReportsAfterRetry(e: UserEvent, a: Conversation, c: Call, cookie: string)
    requires a.stop == StreamEnded
    requires AllConversationEvents(Emitted(a.effects), cookie)
    requires AuthorizationSucceeded(cookie) !in Emitted(a.effects)
    requires Reports(c, cookie)
    ensures Reports(Prepend([Receive(e)] + a.effects, c), cookie)
  {
    RetryStepEvents(e, a, c, cookie);
    if c.result == Ok {
      LastOfAppend([Receive(e)] + a.effects, c.effects);
    }
  }

  lemma ReportsResolved(e: UserEvent, a: Conversation, cookie: string)
    requires a.stop != StreamEnded
    requires AllConversationEvents(Emitted(a.effects), cookie)
    requires AuthorizationSucceeded(cookie) in Emitted(a.effects) <==> a.stop.Authorized?
    requires a.stop.Authorized? ==> a.effects != [] && a.effects[|a.effects| - 1] == Emit(AuthorizationSucceeded(cookie))
    ensures Reports(Call([Receive(e)] + a.effects, Outcome(a.stop)), cookie)
  {
    ReceiveInvisible(e, a.effects);
    if a.stop.Authorized? {
      LastOfAppend([Receive(e)], a.effects);
    }
  }

  lemma PasswordStep(inbox: seq<UserEvent>, closed: bool, helpers: Helpers, cookie: string, attempt: nat)
    requires inbox != [] && inbox[0].ProvidedPassword? && inbox[0].cookie == cookie
    requires Attempt(helpers.env(attempt), inbox[0].username, inbox[0].password, cookie, helpers.path).stop != StreamEnded
    ensures var a := Attempt(helpers.env(attempt), inbox[0].username, inbox[0].password, cookie, helpers.path);
      EventLoop(inbox, closed, helpers, cookie, attempt)
      == Call([Receive(inbox[0])] + a.effects, Outcome(a.stop))
  {
  }

  lemma PasswordReports(inbox: seq<UserEvent>, closed: bool, helpers: Helpers, cookie: string, attempt: nat)
    requires inbox != [] && inbox[0].ProvidedPassword? && inbox[0].cookie == cookie
    requires var a := Attempt(helpers.env(attempt), inbox[0].username, inbox[0].password, cookie, helpers.path);
      a.stop == StreamEnded ==> Reports(EventLoop(inbox[1..], closed, helpers, cookie, attempt + 1), cookie)
    ensures Reports(EventLoop(inbox, closed, helpers, cookie, attempt), cookie)
  {
    var e := inbox[0];
    var a := Attempt(helpers.env(attempt), e.username, e.password, cookie, helpers.path);
    AttemptEvents(helpers.env(attempt), e.username, e.password, cookie, helpers.path);
    if a.stop == StreamEnded {
      RetryStep(inbox, closed, helpers, cookie, attempt);
      ReportsAfterRetry(e, a, EventLoop(inbox[1..], closed, helpers, cookie, attempt + 1), cookie);
    } else {
      PasswordStep(inbox, closed, helpers, cookie, attempt);
      ReportsResolved(e, a, cookie);
    }
  }

  lemma CancelReports(inbox: seq<UserEvent>, closed: bool, helpers: Helpers, cookie: string, attempt: nat)
    requires inbox != [] && inbox[0] == UserCanceled(cookie)
    ensures Reports(EventLoop(inbox, closed, helpers, cookie, attempt), cookie)
  {
    assert Emitted([Receive(inbox[0])]) == [];
  }

  /**
   * Every event the loop emits is a retry or success for its cookie;
   * success is emitted exactly when the call resolves `Ok`, and then it is
   * the call's last effect: nothing follows it.
   */
  lemma {:induction false} LoopEvents(inbox: seq<UserEvent>, closed: bool, helpers: Helpers, cookie: string, attempt: nat)
    ensures Reports(EventLoop(inbox, closed, helpers, cookie, attempt), cookie)
    decreases |inbox|
  {
    if inbox != [] {
      var e := inbox[0];
      if e.Cookie() != cookie {
        ForeignStep(inbox, closed, helpers, cookie, attempt);
        LoopEvents(inbox[1..], closed, helpers, cookie, attempt);
        ReportsAfterTaking(e, EventLoop(inbox[1..], closed, helpers, cookie, attempt), cookie);
      } else if e.ProvidedPassword? {
        LoopEvents(inbox[1..], closed, helpers, cookie, attempt + 1);
        PasswordReports(inbox, closed, helpers, cookie, attempt);
      } else {
        CancelReports(inbox, closed, helpers, cookie, attempt);
      }
    }
  }

  lemma AnnouncedReports(started: AgentEvent, l: Call, cookie: string)
    requires started.Started? && started.cookie == cookie
    requires Reports(l, cookie)
    ensures var c := Prepend([Emit(started)], l);
      var events := Emitted(c.effects);
      && events != [] && events[0] == started
      && AllConversationEvents(events[1..], cookie)
      && (forall e :: e in events ==> e.cookie == cookie)
      && (AuthorizationSucceeded(cookie) in events <==> c.result == Ok)
      && (c.result == Ok ==> c.effects[|c.effects| - 1] == Emit(AuthorizationSucceeded(cookie)))
  {
    EmittedAppend([Emit(started)], l.effects);
    assert Emitted([Emit(started)]) == [started];
    assert ([started] + Emitted(l.effects))[1..] == Emitted(l.effects);
    if l.result == Ok {
      LastOfAppend([Emit(started)], l.effects);
    }
  }

  /**
   * A call the consumer hears about first announces the request with the
   * resolved names; every later event it emits is a retry or success for
   * the same cookie; it resolves `Ok` exactly when it reports success, and
   * then nothing follows.
   */
  lemma CallEvents(consumer: Consumer, passwd: Passwd, helpers: Helpers, message: string, cookie: string,
                   identities: seq<Identity>)
    requires consumer.alive
    ensures var c := BeginAuthentication(consumer, passwd, helpers, message, cookie, identities);
      var events := Emitted(c.effects);
      && events != [] && events[0] == Started(cookie, message, ResolveNames(identities, passwd))
      && AllConversationEvents(events[1..], cookie)
      && (forall e :: e in events ==> e.cookie == cookie)
      && (AuthorizationSucceeded(cookie) in events <==> c.result == Ok)
      && (c.result == Ok ==> c.effects[|c.effects| - 1] == Emit(AuthorizationSucceeded(cookie)))
  {
    LoopEvents(consumer.inbox, consumer.closed, helpers, cookie, 0);
    AnnouncedReports(Started(cookie, message, ResolveNames(identities, passwd)),
                     EventLoop(consumer.inbox, consumer.closed, helpers, cookie, 0), cookie);
  }

  // ---------------------------------------------------------------------
  // The announcement

  /**
   * The call resolves names with the corrected loop. Wherever the loop as
   * written does not panic, the call announces exactly the names that loop
   * computes; an identity that would make it panic is skipped instead.
   */
  lemma AnnouncesAsWrittenNames(consumer: Consumer, passwd: Passwd, helpers: Helpers, message: string, cookie: string,
                                identities: seq<Identity>)
    requires consumer.alive
    ensures var c := BeginAuthentication(consumer, passwd, helpers, message, cookie, identities);
      var asWritten := ResolveNamesAsWritten(identities, passwd);
      && (EveryUserHasUid(identities) <==> asWritten.Names?)
      && (asWritten.Names? ==> c.effects[0] == Emit(Started(cookie, message, asWritten.names)))
  {
    AsWrittenAgrees(identities, passwd);
  }

  // ---------------------------------------------------------------------
  // Attempts that end cleanly

  /**
   * Every attempt reaches a helper that accepts every write, prints no
   * `SUCCESS` line and ends its output cleanly.
   */
  ghost predicate CleanRefusals(helpers: Helpers) {
    forall n: nat :: Healthy(helpers.env(n)) && helpers.env(n).end == Eof && FirstSuccess(helpers.env(n).lines).None?
  }

  /** Such an attempt ends with the helper's output, not with an error. */
  lemma CleanAttempt(env: AttemptEnv, user: string, password: string, cookie: string, helperPath: string)
    requires Healthy(env) && env.end == Eof && FirstSuccess(env.lines).None?
    ensures Attempt(env, user, password, cookie, helperPath).stop == StreamEnded
  {
    HealthyAttempt(env, user, password, cookie, helperPath);
  }

  /**
   * A clean end of the helper's output is not an error: when every attempt
   * ends that way, no password resolves the call, which keeps waiting, or
   * fails only because the channel closed or the user cancelled.
   */
  lemma {:induction false} CleanEndsKeepWaiting(inbox: seq<UserEvent>, closed: bool, helpers: Helpers, cookie: string,
                                               attempt: nat)
    requires CleanRefusals(helpers)
    ensures var r := EventLoop(inbox, closed, helpers, cookie, attempt).result;
      r == (if closed then Err(Failed(ChannelClosed)) else Waiting) || r == Err(Cancelled(UserCancelledReason))
    decreases |inbox|
  {
    if inbox != [] {
      var e := inbox[0];
      if e.Cookie() != cookie {
        ForeignStep(inbox, closed, helpers, cookie, attempt);
        CleanEndsKeepWaiting(inbox[1..], closed, helpers, cookie, attempt);
      } else if e.ProvidedPassword? {
        CleanAttempt(helpers.env(attempt), e.username, e.password, cookie, helpers.path);
        RetryStep(inbox, closed, helpers, cookie, attempt);
        CleanEndsKeepWaiting(inbox[1..], closed, helpers, cookie, attempt + 1);
      }
    }
  }

  // ---------------------------------------------------------------------
  // A helper that goes quiet

  /**
   * A password whose attempt reaches a helper that prints no `SUCCESS` and
   * then keeps its output open without writing blocks the call for good:
   * it never resolves, the password is the last event taken, and whatever
   * is queued behind it, a cancel for this cookie included, changes nothing.
   */
  lemma StalledAttemptBlocks(e: UserEvent, queued: seq<UserEvent>, closed: bool, helpers: Helpers, cookie: string,
                             attempt: nat)
    requires e.ProvidedPassword? && e.cookie == cookie
    requires var env := helpers.env(attempt);
      Healthy(env) && env.end == Silent && FirstSuccess(env.lines).None?
    ensures var c := EventLoop([e] + queued, closed, helpers, cookie, attempt);
      && c.result == Hung
      && Received(c.effects) == [e]
      && c == EventLoop([e], closed, helpers, cookie, attempt)
  {
    var a := Attempt(helpers.env(attempt), e.username, e.password, cookie, helpers.path);
    HealthyAttempt(helpers.env(attempt), e.username, e.password, cookie, helpers.path);
    AttemptTakesNothing(helpers.env(attempt), e.username, e.password, cookie, helpers.path);
    ConsParts(e, queued);
    PasswordStep([e] + queued, closed, helpers, cookie, attempt);
    ResolvingStep(e, queued, [], closed, helpers, cookie, attempt);
    ReceivedAppend([Receive(e)], a.effects);
    assert [e] + [] == [e];
  }

  // ---------------------------------------------------------------------
  // CancelAuthentication

  /** Each request is forwarded on its own: two requests for one cookie reach the consumer twice. */
  lemma CancelTwice(cookie: string)
    ensures var r := CancelAuthentication(cookie, true);
      Emitted(r.effects + r.effects) == [Canceled(cookie), Canceled(cookie)]
  {
    var r := CancelAuthentication(cookie, true);
    EmittedAppend(r.effects, r.effects);
  }
}

=== FILE: attempt_facts.dfy ===
/**
 * One whole password attempt against a helper that accepts every write:
 * how it opens, what the helper is sent, what is read and emitted, and,
 * from the helper's side, which lines it receives.
 */
module AttemptFacts {
  import opened Wrappers
  import opened Events
  import opened Helper
  import opened HelperFacts

  /** The socket is preferred; the spawned helper is the fallback. */
  function TransportOf(env: AttemptEnv): Transport {
    if env.socketUp then Socket else Spawned
  }

  /** The log entry that opens the connection. */
  function OpenEffect(env: AttemptEnv, user: string, helperPath: string): Effect {
    if env.socketUp then Connect(SocketPath) else Spawn(helperPath, [user], HelperEnv)
  }

  /** The helper can be reached and accepts every write. */
  predicate Healthy(env: AttemptEnv) {
    env.room.None? && (env.socketUp || env.spawnOk)
  }

  // ---------------------------------------------------------------------
  // Small steps

  lemma OpenedHealthy(env: AttemptEnv, user: string, password: string, cookie: string, helperPath: string)
    requires Healthy(env)
    ensures Attempt(env, user, password, cookie, helperPath)
         == Then([OpenEffect(env, user, helperPath)] + WriteEffects(Handshake(TransportOf(env), user, cookie)),
                 Converse(env.lines, env.end, None, None, password, cookie))
  {
  }

  lemma PreludeProjections(open: Effect, chunks: seq<string>)
    requires open.Connect? || open.Spawn?
    ensures Written([open] + WriteEffects(chunks)) == chunks
    ensures LinesRead([open] + WriteEffects(chunks)) == []
    ensures Emitted([open] + WriteEffects(chunks)) == []
  {
    WriteEffectsProjections(chunks);
    ProjectionsAppend([open], WriteEffects(chunks));
  }

  lemma ThenProjections(prelude: seq<Effect>, c: Conversation)
    ensures Written(Then(prelude, c).effects) == Written(prelude) + Written(c.effects)
    ensures LinesRead(Then(prelude, c).effects) == LinesRead(prelude) + LinesRead(c.effects)
    ensures Emitted(Then(prelude, c).effects) == Emitted(prelude) + Emitted(c.effects)
  {
    ProjectionsAppend(prelude, c.effects);
  }

  // ---------------------------------------------------------------------
  // A healthy attempt

  /**
   * A healthy attempt opens the socket if it is up and spawns the helper
   * otherwise, sends the handshake for that transport followed by the
   * password and a newline once per `Password:` prompt among the lines it
   * reads, reads exactly the lines up to the first `SUCCESS`, emits the
   * reference events of those lines, and stops as the reference says.
   */
  lemma {:induction false} HealthyAttempt(env: AttemptEnv, user: string, password: string, cookie: string,
                                          helperPath: string)
    requires Healthy(env)
    ensures var a := Attempt(env, user, password, cookie, helperPath);
      var read := env.lines[..Processed(env.lines)];
      && a.effects != [] && a.effects[0] == OpenEffect(env, user, helperPath)
      && Written(a.effects) == Handshake(TransportOf(env), user, cookie) + Repeat([password, Newline], CountPrompts(read))
      && LinesRead(a.effects) == read
      && Emitted(a.effects) == EventsFrom(env.lines, 0, cookie)
      && a.stop == HealthyStop(env.lines, env.end)
  {
    var open := OpenEffect(env, user, helperPath);
    var hs := Handshake(TransportOf(env), user, cookie);
    var c := Converse(env.lines, env.end, None, None, password, cookie);
    var read := env.lines[..Processed(env.lines)];
    OpenedHealthy(env, user, password, cookie, helperPath);
    PreludeProjections(open, hs);
    ThenProjections([open] + WriteEffects(hs), c);
    HealthyConversation(env.lines, env.end, None, password, cookie);
    ConversationEvents(env.lines, env.end, password, cookie);
    EmptyThen(read);
    EmptyThen(EventsFrom(env.lines, 0, cookie));
  }

  /** Neither a socket nor a spawnable helper: the attempt fails before any effect. */
  lemma UnreachableHelper(env: AttemptEnv, user: string, password: string, cookie: string, helperPath: string)
    requires !env.socketUp && !env.spawnOk
    ensures Attempt(env, user, password, cookie, helperPath) == Conversation([], Broken(Failed(SpawnFailed)))
  {
  }

  // ---------------------------------------------------------------------
  // Any attempt

  lemma SilentPrelude(open: seq<Effect>, chunks: seq<string>)
    requires forall i :: 0 <= i < |open| ==> open[i].Connect? || open[i].Spawn?
    requires |open| <= 1
    ensures Emitted(open + WriteEffects(chunks)) == []
  {
    WriteEffectsProjections(chunks);
    EmittedAppend(open, WriteEffects(chunks));
    if open != [] {
      assert open[1..] == [];
    }
  }

  /**
   * Whatever the helper does, every event an attempt emits is a retry or
   * success for its cookie, success is emitted exactly when the attempt
   * is authorized, and then it is the attempt's last effect.
   */
  lemma AttemptEvents(env: AttemptEnv, user: string, password: string, cookie: string, helperPath: string)
    ensures var a := Attempt(env, user, password, cookie, helperPath);
      && (forall e :: e in Emitted(a.effects) ==> ConversationEvent(e, cookie))
      && (AuthorizationSucceeded(cookie) in Emitted(a.effects) <==> a.stop.Authorized?)
      && (a.stop.Authorized? ==> a.effects != [] && a.effects[|a.effects| - 1] == Emit(AuthorizationSucceeded(cookie)))
  {
    match Open(env, user, helperPath)
    case OpenFailed(_) =>
    case Opened(openEffects, transport) =>
      var hs := WriteChunks(Handshake(transport, user, cookie), env.room);
      SilentPrelude(openEffects, hs.written);
      if hs.ok {
        var c := Converse(env.lines, env.end, None, hs.room, password, cookie);
        assert Reported(c, cookie);
        ThenReports(openEffects + WriteEffects(hs.written), c, cookie);
      }
  }

  /**
   * An attempt takes nothing from the consumer's channel: while it runs,
   * a cancel or a second password waits in the channel.
   */
  lemma AttemptTakesNothing(env: AttemptEnv, user: string, password: string, cookie: string, helperPath: string)
    ensures Received(Attempt(env, user, password, cookie, helperPath).effects) == []
  {
    match Open(env, user, helperPath)
    case OpenFailed(_) =>
    case Opened(openEffects, transport) =>
      var hs := WriteChunks(Handshake(transport, user, cookie), env.room);
      WriteEffectsProjections(hs.written);
      ReceivedAppend(openEffects, WriteEffects(hs.written));
      if hs.ok {
        var c := Converse(env.lines, env.end, None, hs.room, password, cookie);
        ConverseTakesNothing(env.lines, env.end, None, hs.room, password, cookie);
        ReceivedAppend(openEffects + WriteEffects(hs.written), c.effects);
      }
  }

  /** A log without reads has read nothing, and neither has any prefix of it. */
  lemma {:induction false} NoReadsIn(log: seq<Effect>, k: nat)
    requires forall i :: 0 <= i < |log| ==> !log[i].ReadLine?
    requires k <= |log|
    ensures LinesRead(log[..k]) == []
    decreases k
  {
    if k > 0 {
      assert log[..k] == [log[0]] + log[1..][..k - 1];
      assert forall i :: 0 <= i < |log[1..]| ==> log[1..][i] == log[i + 1];
      NoReadsIn(log[1..], k - 1);
      LinesReadAppend([log[0]], log[1..][..k - 1]);
    }
  }

  /**
   * A log that starts with a prelude writing `chunks` and reading nothing:
   * any prefix of it that has read a line has written all of `chunks`
   * first.
   */
  lemma ReadsAfterPrelude(prelude: seq<Effect>, rest: seq<Effect>, chunks: seq<string>)
    requires forall i :: 0 <= i < |prelude| ==> !prelude[i].ReadLine?
    requires Written(prelude) == chunks
    ensures forall k :: 0 <= k <= |prelude + rest| ==>
      (LinesRead((prelude + rest)[..k]) != [] ==>
         |chunks| <= |Written((prelude + rest)[..k])| && Written((prelude + rest)[..k])[..|chunks|] == chunks)
  {
    var log := prelude + rest;
    forall k | 0 <= k <= |log|
      ensures LinesRead(log[..k]) != [] ==> |chunks| <= |Written(log[..k])| && Written(log[..k])[..|chunks|] == chunks
    {
      if k <= |prelude| {
        assert log[..k] == prelude[..k];
        NoReadsIn(prelude, k);
      } else {
        assert log[..k] == prelude + rest[..k - |prelude|];
        WrittenAppend(prelude, rest[..k - |prelude|]);
      }
    }
  }

  /** The prelude of an attempt that reached the helper: the opening entry, then its writes. */
  lemma PreludeReadsNothing(open: Effect, chunks: seq<string>)
    requires open.Connect? || open.Spawn?
    ensures forall i :: 0 <= i < |[open] + WriteEffects(chunks)| ==> !([open] + WriteEffects(chunks))[i].ReadLine?
  {
    var prelude := [open] + WriteEffects(chunks);
    forall i | 0 <= i < |prelude|
      ensures !prelude[i].ReadLine?
    {
      if i > 0 {
        assert prelude[i] == WriteEffects(chunks)[i - 1];
      }
    }
  }

  /**
   * Whatever the helper does, no line is read from it before the whole
   * handshake for the transport in use has been written: a prefix of the
   * attempt's log that has read a line has reached the helper and begins
   * its writes with the complete handshake.
   */
  lemma HandshakeBeforeReads(env: AttemptEnv, user: string, password: string, cookie: string, helperPath: string)
    ensures var a := Attempt(env, user, password, cookie, helperPath);
      forall k :: 0 <= k <= |a.effects| && LinesRead(a.effects[..k]) != [] ==>
        && (env.socketUp || env.spawnOk)
        && |Handshake(TransportOf(env), user, cookie)| <= |Written(a.effects[..k])|
        && Written(a.effects[..k])[..|Handshake(TransportOf(env), user, cookie)|] == Handshake(TransportOf(env), user, cookie)
  {
    var a := Attempt(env, user, password, cookie, helperPath);
    match Open(env, user, helperPath)
    case OpenFailed(_) =>
      assert a.effects == [];
      forall k | 0 <= k <= |a.effects|
        ensures LinesRead(a.effects[..k]) == []
      {
        assert a.effects[..k] == [];
      }
    case Opened(openEffects, transport) =>
      var open := OpenEffect(env, user, helperPath);
      assert openEffects == [open] && transport == TransportOf(env);
      var hs := WriteChunks(Handshake(transport, user, cookie), env.room);
      PreludeReadsNothing(open, hs.written);
      if hs.ok {
        var c := Converse(env.lines, env.end, None, hs.room, password, cookie);
        assert a.effects == ([open] + WriteEffects(hs.written)) + c.effects;
        PreludeProjections(open, hs.written);
        ReadsAfterPrelude([open] + WriteEffects(hs.written), c.effects, hs.written);
      } else {
        assert a.effects == [open] + WriteEffects(hs.written);
        forall k | 0 <= k <= |a.effects|
          ensures LinesRead(a.effects[..k]) == []
        {
          NoReadsIn(a.effects, k);
        }
      }
  }

  // ---------------------------------------------------------------------
  // The helper's side

  /** The byte stream of `k` password replies. */
  lemma {:induction false} RepeatedRepliesLines(password: string, k: nat)
    requires '\n' !in password
    ensures Lines(Concat(Repeat([password, Newline], k))) == Repeat([password], k)
  {
    if k > 0 {
      var tail := Concat(Repeat([password, Newline], k - 1));
      RepliesStreamStep(password, k);
      LinesCons(password, tail);
      RepeatedRepliesLines(password, k - 1);
    }
  }

  /** The stream of `k` replies is one reply line followed by the stream of `k - 1`. */
  lemma RepliesStreamStep(password: string, k: nat)
    requires k > 0
    ensures Concat(Repeat([password, Newline], k)) == password + Newline + Concat(Repeat([password, Newline], k - 1))
  {
    ConcatAppend([password, Newline], Repeat([password, Newline], k - 1));
    ConcatPair(password);
  }

  lemma ConcatPair(a: string)
    ensures Concat([a, Newline]) == a + Newline
  {
    assert [a, Newline][1..] == [Newline] && [Newline][1..] == [];
    assert Concat([Newline]) == Newline + Concat([]);
  }

  /** Lines of a stream that starts with newline-terminated lines. */
  lemma LinesAfterHandshake(t: Transport, user: string, cookie: string, rest: string)
    requires '\n' !in user && '\n' !in cookie
    ensures Lines(Concat(Handshake(t, user, cookie)) + rest)
         == (if t == Socket then [user, cookie] else [cookie]) + Lines(rest)
  {
    if t == Socket {
      assert user + Newline + cookie + Newline + rest == user + Newline + (cookie + Newline + rest);
      LinesCons(user, cookie + Newline + rest);
      LinesCons(cookie, rest);
    } else {
      LinesCons(cookie, rest);
    }
  }

  /**
   * What the helper reads from a healthy attempt, provided the user name,
   * the cookie and the password hold no newline: over the socket the user
   * and the cookie, to a spawned helper the cookie alone, and then the
   * password once for every `Password:` prompt it sent.
   */
  lemma HelperReads(env: AttemptEnv, user: string, password: string, cookie: string, helperPath: string)
    requires Healthy(env)
    requires '\n' !in user && '\n' !in cookie && '\n' !in password
    ensures var a := Attempt(env, user, password, cookie, helperPath);
      var k := CountPrompts(env.lines[..Processed(env.lines)]);
      Lines(Concat(Written(a.effects)))
      == (if env.socketUp then [user, cookie] else [cookie]) + Repeat([password], k)
  {
    var k := CountPrompts(env.lines[..Processed(env.lines)]);
    var hs := Handshake(TransportOf(env), user, cookie);
    var replies := Repeat([password, Newline], k);
    HealthyAttempt(env, user, password, cookie, helperPath);
    ConcatAppend(hs, replies);
    LinesAfterHandshake(TransportOf(env), user, cookie, Concat(replies));
    RepeatedRepliesLines(password, k);
  }
}

=== FILE: events.dfy ===
/**
 * The messages the agent exchanges with its consumer (the prompt surface),
 * the errors a BeginAuthentication call resolves with, and the log of
 * observable effects a call performs, in order.
 */
module Events {
  import opened Wrappers

  /** Agent to consumer, as `AuthenticationAgentEvent` is constructed in src/dbus.rs. */
  datatype AgentEvent =
    | Started(cookie: string, message: string, names: seq<string>)
    | Canceled(cookie: string)
    | AuthorizationRetry(cookie: string, retryMessage: Option<string>)
    | AuthorizationSucceeded(cookie: string)

  /** Consumer to agent, as `AuthenticationUserEvent` is matched in src/dbus.rs. */
  datatype UserEvent =
    | UserCanceled(cookie: string)
    | ProvidedPassword(cookie: string, username: string, password: string)
  {
    function Cookie(): string {
      match this
      case UserCanceled(c) => c
      case ProvidedPassword(c, _, _) => c
    }
  }

  /** Which helper-stream operation an I/O error came from. */
  datatype IoOp = WriteOp | ReadOp

  /** The errors a BeginAuthentication call can resolve with. */
  datatype PolkitError =
    | Cancelled(reason: string)
    | Failed(reason: string)
      /** An I/O error raised by `?`; its conversion into a bus error lives outside this model. */
    | Io(op: IoOp)

  /** One observable step of a call, in the order it happens. */
  datatype Effect =
    | Emit(event: AgentEvent)                  // sent to the consumer
    | Receive(input: UserEvent)                // taken from the consumer's channel
    | Connect(path: string)                    // connected to the helper's socket
    | Spawn(program: string, args: seq<string>, env: seq<(string, string)>)
    | Write(data: string)                      // one `write_all` to the helper
    | ReadLine(line: string)                   // one line read from the helper
    | Flush

  /** The agent events of a log, in order. */
  function Emitted(log: seq<Effect>): seq<AgentEvent> {
    if log == [] then []
    else (if log[0].Emit? then [log[0].event] else []) + Emitted(log[1..])
  }

  /** The data written to the helper, one element per `write_all`, in order. */
  function Written(log: seq<Effect>): seq<string> {
    if log == [] then []
    else (if log[0].Write? then [log[0].data] else []) + Written(log[1..])
  }

  /** The helper lines read, in order. */
  function LinesRead(log: seq<Effect>): seq<string> {
    if log == [] then []
    else (if log[0].ReadLine? then [log[0].line] else []) + LinesRead(log[1..])
  }

  /** The consumer events taken from the channel, in order. */
  function Received(log: seq<Effect>): seq<UserEvent> {
    if log == [] then []
    else (if log[0].Receive? then [log[0].input] else []) + Received(log[1..])
  }

  /** The log with the consumer events taken from the channel left out. */
  function WithoutReceives(log: seq<Effect>): seq<Effect> {
    if log == [] then []
    else (if log[0].Receive? then [] else [log[0]]) + WithoutReceives(log[1..])
  }

  /** Sequence concatenation regrouped, for proofs that unfold one side. */
  lemma Reassociate<T>(h: seq<T>, x: seq<T>, y: seq<T>)
    ensures h + (x + y) == (h + x) + y
  {
  }

  /** The empty sequence is a left unit of concatenation. */
  lemma EmptyThen<T>(s: seq<T>)
    ensures [] + s == s
  {
  }

  /** An element put in front of a sequence is its head, and the sequence its tail. */
  lemma ConsParts<T>(e: T, rest: seq<T>)
    ensures ([e] + rest)[0] == e && ([e] + rest)[1..] == rest && [e] + rest != []
  {
  }

  /** Appending a non-empty sequence makes its last element the last one. */
  lemma LastOfAppend<T>(a: seq<T>, b: seq<T>)
    requires b != []
    ensures a + b != [] && (a + b)[|a + b| - 1] == b[|b| - 1]
  {
  }

  /** Two elements put in front one by one, or as a pair. */
  lemma PairThen<T>(x: T, y: T, s: seq<T>)
    ensures [x] + ([y] + s) == [x, y] + s
  {
  }

  /** Four elements and two more, as one display. */
  lemma FourThenTwo<T>(a: T, b: T, c: T, d: T, e: T, f: T)
    ensures [a, b, c, d] + [e, f] == [a, b, c, d, e, f]
  {
  }

  /** The agent events of two logs in sequence are those of each, in sequence. */
  lemma {:induction false} EmittedAppend(a: seq<Effect>, b: seq<Effect>)
    ensures Emitted(a + b) == Emitted(a) + Emitted(b)
  {
    if a == [] {
      assert a + b == b;
    } else {
      var h := if a[0].Emit? then [a[0].event] else [];
      assert (a + b)[0] == a[0] && (a + b)[1..] == a[1..] + b;
      EmittedAppend(a[1..], b);
      assert Emitted(a + b) == h + Emitted(a[1..] + b);
      Reassociate(h, Emitted(a[1..]), Emitted(b));
    }
  }

  /** The writes of two logs in sequence are those of each, in sequence. */
  lemma {:induction false} WrittenAppend(a: seq<Effect>, b: seq<Effect>)
    ensures Written(a + b) == Written(a) + Written(b)
  {
    if a == [] {
      assert a + b == b;
    } else {
      var h := if a[0].Write? then [a[0].data] else [];
      assert (a + b)[0] == a[0] && (a + b)[1..] == a[1..] + b;
      WrittenAppend(a[1..], b);
      assert Written(a + b) == h + Written(a[1..] + b);
      Reassociate(h, Written(a[1..]), Written(b));
    }
  }

  /** The lines read of two logs in sequence are those of each, in sequence. */
  lemma {:induction false} LinesReadAppend(a: seq<Effect>, b: seq<Effect>)
    ensures LinesRead(a + b) == LinesRead(a) + LinesRead(b)
  {
    if a == [] {
      assert a + b == b;
    } else {
      var h := if a[0].ReadLine? then [a[0].line] else [];
      assert (a + b)[0] == a[0] && (a + b)[1..] == a[1..] + b;
      LinesReadAppend(a[1..], b);
      assert LinesRead(a + b) == h + LinesRead(a[1..] + b);
      Reassociate(h, LinesRead(a[1..]), LinesRead(b));
    }
  }

  /** The consumer events taken of two logs in sequence are those of each, in sequence. */
  lemma {:induction false} ReceivedAppend(a: seq<Effect>, b: seq<Effect>)
    ensures Received(a + b) == Received(a) + Received(b)
  {
    if a == [] {
      assert a + b == b;
    } else {
      var h := if a[0].Receive? then [a[0].input] else [];
      assert (a + b)[0] == a[0] && (a + b)[1..] == a[1..] + b;
      ReceivedAppend(a[1..], b);
      assert Received(a + b) == h + Received(a[1..] + b);
      Reassociate(h, Received(a[1..]), Received(b));
    }
  }

  /** The log without its receives of two logs in sequence are those of each, in sequence. */
  lemma {:induction false} WithoutReceivesAppend(a: seq<Effect>, b: seq<Effect>)
    ensures WithoutReceives(a + b) == WithoutReceives(a) + WithoutReceives(b)
  {
    if a == [] {
      assert a + b == b;
    } else {
      var h := if a[0].Receive? then [] else [a[0]];
      assert (a + b)[0] == a[0] && (a + b)[1..] == a[1..] + b;
      WithoutReceivesAppend(a[1..], b);
      assert WithoutReceives(a + b) == h + WithoutReceives(a[1..] + b);
      Reassociate(h, WithoutReceives(a[1..]), WithoutReceives(b));
    }
  }

  /** Every projection of a log distributes over concatenation. */
  lemma ProjectionsAppend(a: seq<Effect>, b: seq<Effect>)
    ensures Emitted(a + b) == Emitted(a) + Emitted(b)
    ensures Written(a + b) == Written(a) + Written(b)
    ensures LinesRead(a + b) == LinesRead(a) + LinesRead(b)
    ensures Received(a + b) == Received(a) + Received(b)
    ensures WithoutReceives(a + b) == WithoutReceives(a) + WithoutReceives(b)
  {
    EmittedAppend(a, b);
    WrittenAppend(a, b);
    LinesReadAppend(a, b);
    ReceivedAppend(a, b);
    WithoutReceivesAppend(a, b);
  }
}

=== FILE: helper.dfy ===
/**
 * One password attempt against the privileged helper (src/dbus.rs, the
 * body of the `ProvidedPassword` arm): open the socket or spawn the helper,
 * write the handshake, then interpret the helper's output line by line.
 *
 * The helper's side of an attempt is given as data: whether the socket
 * accepts a connection, whether spawning succeeds, the lines it prints,
 * how its output ends, and how many `write_all` calls its end accepts.
 */
module Helper {
  import opened Wrappers
  import opened Text
  import opened Events

  const SocketPath := "/run/polkit/agent-helper.socket"
  const EchoOffPrefix := "PAM_PROMPT_ECHO_OFF"
  const TextInfoPrefix := "PAM_TEXT_INFO"
  const FailurePrefix := "FAILURE"
  const SuccessPrefix := "SUCCESS"
  const PasswordPrompt := "Password:"
  const Newline := "\n"
  /** The untranslated message id of the generic retry text. */
  const FallbackRetry := "Authentication failed. Please try again."
  const SpawnFailed := "Failed to the spawn polkit authentication helper."
  /** The spawned helper runs in the C locale, so its prompts are not translated. */
  const HelperEnv: seq<(string, string)> := [("LC_ALL", "C")]

  /**
   * How the helper's output stream ends once its lines are read: it
   * closes, a read fails, or it stays open with nothing more to read, so
   * the next read never returns.
   */
  datatype StreamEnd = Eof | ReadError | Silent

  /** The helper's side of one attempt. */
  datatype AttemptEnv = AttemptEnv(
    socketUp: bool,          // the helper socket accepts a connection
    spawnOk: bool,           // spawning the helper executable succeeds
    lines: seq<string>,      // what the helper prints, line by line
    end: StreamEnd,
    room: Option<nat>)       // `write_all` calls accepted before the pipe breaks; None: all

  /** Which way the helper was reached. */
  datatype Transport = Socket | Spawned

  // ---------------------------------------------------------------------
  // Handshake

  /**
   * The `write_all` calls of the handshake: over the socket the user and
   * the cookie, each newline-terminated; to a spawned helper only the
   * cookie (the user is its command-line argument).
   */
  function Handshake(t: Transport, user: string, cookie: string): (chunks: seq<string>)
    ensures t == Socket ==> Concat(chunks) == user + Newline + cookie + Newline
    ensures t == Spawned ==> Concat(chunks) == cookie + Newline
  {
    match t
    case Socket =>
      assert Concat([user, Newline, cookie, Newline]) == user + Newline + cookie + Newline by {
        ConcatAppend([user, Newline], [cookie, Newline]);
        assert [user, Newline] + [cookie, Newline] == [user, Newline, cookie, Newline];
      }
      [user, Newline, cookie, Newline]
    case Spawned =>
      assert [cookie, Newline][1..] == [Newline] && [Newline][1..] == [];
      assert Concat([Newline]) == Newline + Concat([]) == Newline;
      assert Concat([cookie, Newline]) == cookie + Concat([Newline]);
      [cookie, Newline]
  }

  /** The byte stream a sequence of writes produces. */
  function Concat(chunks: seq<string>): string {
    if chunks == [] then [] else chunks[0] + Concat(chunks[1..])
  }

  lemma {:induction false} ConcatAppend(a: seq<string>, b: seq<string>)
    ensures Concat(a + b) == Concat(a) + Concat(b)
  {
    if a == [] {
      assert a + b == b;
    } else {
      assert (a + b)[1..] == a[1..] + b;
      ConcatAppend(a[1..], b);
    }
  }

  /** The first newline of `t`, if any. */
  function NewlineIndex(t: string): (r: Option<nat>)
    ensures r.Some? ==> r.value < |t| && t[r.value] == '\n' && '\n' !in t[..r.value]
    ensures r.None? ==> '\n' !in t
  {
    if t == [] then None
    else if t[0] == '\n' then Some(0)
    else
      match NewlineIndex(t[1..])
      case None => None
      case Some(i) =>
        assert t[..i + 1] == [t[0]] + t[1..][..i];
        Some(i + 1)
  }

  /**
   * The complete, newline-terminated lines of a byte stream, as the helper
   * reads them; an unterminated tail is not a line yet.
   */
  function Lines(t: string): seq<string>
    decreases |t|
  {
    match NewlineIndex(t)
    case None => []
    case Some(i) => [t[..i]] + Lines(t[i + 1..])
  }

  /** A newline-free line followed by a newline is read back as that line. */
  lemma LinesCons(a: string, rest: string)
    requires '\n' !in a
    ensures Lines(a + Newline + rest) == [a] + Lines(rest)
  {
    var t := a + Newline + rest;
    assert t[|a|] == '\n';
    assert t[..|a|] == a;
    assert t[|a| + 1..] == rest;
  }

  /** A single newline-terminated line is read back as that line. */
  lemma OneLine(a: string)
    requires '\n' !in a
    ensures Lines(a + Newline) == [a]
  {
    LinesCons(a, []);
    assert a + Newline + [] == a + Newline;
    assert Lines([]) == [];
  }

  /**
   * The helper reads the socket handshake back as the user line and the
   * cookie line, provided neither contains a newline.
   */
  lemma SocketHandshakeRoundTrip(user: string, cookie: string)
    requires '\n' !in user && '\n' !in cookie
    ensures Lines(Concat(Handshake(Socket, user, cookie))) == [user, cookie]
  {
    Reassociate(user + Newline, cookie, Newline);
    LinesCons(user, cookie + Newline);
    OneLine(cookie);
  }

  /** A spawned helper reads the cookie line back from its standard input. */
  lemma SpawnHandshakeRoundTrip(user: string, cookie: string)
    requires '\n' !in cookie
    ensures Lines(Concat(Handshake(Spawned, user, cookie))) == [cookie]
  {
    OneLine(cookie);
  }

  // ---------------------------------------------------------------------
  // Helper output lines

  /** What a helper line asks for, the prefixes checked in the agent's order. */
  datatype Directive =
    | EchoOff(prompt: string)     // the text after `PAM_PROMPT_ECHO_OFF`
    | TextInfo(info: string)      // the text after `PAM_TEXT_INFO`
    | Failure
    | Success
    | Unrecognised

  /** Two prefixes that differ at some position cannot both start a line. */
  lemma PrefixesExclusive(line: string, p: string, q: string, k: nat)
    requires k < |p| && k < |q| && p[k] != q[k]
    ensures !(StartsWith(line, p) && StartsWith(line, q))
  {
  }

  /**
   * The directive of a helper line. The four prefixes are pairwise
   * exclusive, so each directive holds exactly when its prefix starts the
   * line, and a prompt or info line is its prefix followed by its text.
   */
  function Classify(line: string): (d: Directive)
    ensures d.EchoOff? <==> StartsWith(line, EchoOffPrefix)
    ensures d.EchoOff? ==> line == EchoOffPrefix + d.prompt
    ensures d.TextInfo? <==> StartsWith(line, TextInfoPrefix)
    ensures d.TextInfo? ==> line == TextInfoPrefix + d.info
    ensures d.Failure? <==> StartsWith(line, FailurePrefix)
    ensures d.Success? <==> StartsWith(line, SuccessPrefix)
  {
    PrefixesExclusive(line, EchoOffPrefix, TextInfoPrefix, 4);
    PrefixesExclusive(line, EchoOffPrefix, FailurePrefix, 0);
    PrefixesExclusive(line, EchoOffPrefix, SuccessPrefix, 0);
    PrefixesExclusive(line, TextInfoPrefix, FailurePrefix, 0);
    PrefixesExclusive(line, TextInfoPrefix, SuccessPrefix, 0);
    PrefixesExclusive(line, FailurePrefix, SuccessPrefix, 0);
    match StripPrefix(line, EchoOffPrefix)
    case Some(prompt) => EchoOff(prompt)
    case None =>
      match StripPrefix(line, TextInfoPrefix)
      case Some(info) => TextInfo(info)
      case None =>
        if StartsWith(line, FailurePrefix) then Failure
        else if StartsWith(line, SuccessPrefix) then Success
        else Unrecognised
  }

  /** The helper asks for the password: an echo-off prompt reading `Password:` once trimmed. */
  predicate IsPasswordPrompt(line: string) {
    var d := Classify(line);
    d.EchoOff? && Trim(d.prompt) == PasswordPrompt
  }

  predicate IsSuccessLine(line: string) {
    Classify(line).Success?
  }

  /** The lockout text an info line carries: its trimmed text when that mentions both `minute` and `unlock`. */
  function LockoutOf(line: string): (r: Option<string>)
    ensures r.Some? ==> Classify(line).TextInfo? && r.value == Trim(Classify(line).info)
    ensures r.Some? ==> Contains(r.value, "minute") && Contains(r.value, "unlock")
    ensures Classify(line).TextInfo? && r.None? ==>
      !(Contains(Trim(Classify(line).info), "minute") && Contains(Trim(Classify(line).info), "unlock"))
  {
    match Classify(line)
    case TextInfo(info) =>
      var msg := Trim(info);
      if Contains(msg, "minute") && Contains(msg, "unlock") then Some(msg) else None
    case _ => None
  }

  // ---------------------------------------------------------------------
  // Writing to the helper

  /** The outcome of a run of `write_all` calls: what went through, and whether all did. */
  datatype Writes = Writes(written: seq<string>, room: Option<nat>, ok: bool)

  /**
   * Issue the `write_all` calls in order while the helper's end accepts
   * them; the first refused call fails and ends the run.
   */
  function WriteChunks(chunks: seq<string>, room: Option<nat>): (w: Writes)
    ensures room.None? ==> w == Writes(chunks, None, true)
    ensures room.Some? && room.value >= |chunks| ==> w == Writes(chunks, Some(room.value - |chunks|), true)
    ensures room.Some? && room.value < |chunks| ==> !w.ok && w.written == chunks[..room.value]
  {
    if room.None? then Writes(chunks, None, true)
    else if room.value >= |chunks| then Writes(chunks, Some(room.value - |chunks|), true)
    else Writes(chunks[..room.value], room, false)
  }

  /** The log entries of a run of writes. */
  function WriteEffects(chunks: seq<string>): (r: seq<Effect>)
    ensures |r| == |chunks| && forall i :: 0 <= i < |r| ==> r[i] == Write(chunks[i])
  {
    seq(|chunks|, i requires 0 <= i < |chunks| => Write(chunks[i]))
  }

  /** The log entries of a run of emitted events. */
  function EmitEffects(events: seq<AgentEvent>): (r: seq<Effect>)
    ensures |r| == |events| && forall i :: 0 <= i < |r| ==> r[i] == Emit(events[i])
  {
    seq(|events|, i requires 0 <= i < |events| => Emit(events[i]))
  }

  lemma {:induction false} WriteEffectsProjections(chunks: seq<string>)
    ensures Written(WriteEffects(chunks)) == chunks
    ensures Emitted(WriteEffects(chunks)) == []
    ensures LinesRead(WriteEffects(chunks)) == []
    ensures Received(WriteEffects(chunks)) == []
  {
    if chunks != [] {
      WriteEffectsProjections(chunks[1..]);
      assert WriteEffects(chunks)[1..] == WriteEffects(chunks[1..]);
    }
  }

  lemma {:induction false} EmitEffectsProjections(events: seq<AgentEvent>)
    ensures Written(EmitEffects(events)) == []
    ensures Emitted(EmitEffects(events)) == events
    ensures LinesRead(EmitEffects(events)) == []
    ensures Received(EmitEffects(events)) == []
  {
    if events != [] {
      EmitEffectsProjections(events[1..]);
      assert EmitEffects(events)[1..] == EmitEffects(events[1..]);
    }
  }

  // ---------------------------------------------------------------------
  // The conversation

  /** How reading the helper's output stopped. */
  datatype Stop =
    | Authorized            // a `SUCCESS` line
    | StreamEnded           // the output ended cleanly: back to waiting for the consumer
    | Broken(err: PolkitError)
    | Stalled               // blocked for good reading output that stays open and silent

  datatype Conversation = Conversation(effects: seq<Effect>, stop: Stop)

  function Then(effects: seq<Effect>, c: Conversation): Conversation {
    Conversation(effects + c.effects, c.stop)
  }

  /** After a line: keep reading with the new state, or stop. */
  datatype Next = Continue(lastInfo: Option<string>, room: Option<nat>) | Halt(stop: Stop)

  /** Handling one line: the line read, the writes issued, the events emitted, and what follows. */
  datatype StepResult = StepResult(line: string, writes: seq<string>, events: seq<AgentEvent>, next: Next)

  /** The log entries of one step, in order: the read, its writes, its events. */
  function StepEffects(s: StepResult): seq<Effect> {
    [ReadLine(s.line)] + WriteEffects(s.writes) + EmitEffects(s.events)
  }

  lemma StepProjections(s: StepResult)
    ensures LinesRead(StepEffects(s)) == [s.line]
    ensures Written(StepEffects(s)) == s.writes
    ensures Emitted(StepEffects(s)) == s.events
    ensures Received(StepEffects(s)) == []
  {
    WriteEffectsProjections(s.writes);
    EmitEffectsProjections(s.events);
    ProjectionsAppend([ReadLine(s.line)], WriteEffects(s.writes));
    ProjectionsAppend([ReadLine(s.line)] + WriteEffects(s.writes), EmitEffects(s.events));
  }

  /** The events one line gives rise to, given the remembered lockout text. */
  function LineEvents(line: string, lastInfo: Option<string>, cookie: string): seq<AgentEvent> {
    match Classify(line)
    case TextInfo(_) =>
      (match LockoutOf(line)
       case Some(msg) => [AuthorizationRetry(cookie, Some(msg))]
       case None => [])
    case Failure => [AuthorizationRetry(cookie, Some(lastInfo.GetOr(FallbackRetry)))]
    case Success => [AuthorizationSucceeded(cookie)]
    case _ => []
  }

  /**
   * Handle one helper line, remembering in `lastInfo` the latest lockout text:
   * - a `Password:` prompt is answered with the password and a newline;
   * - a lockout info line is remembered and reported at once as a retry;
   * - `FAILURE` reports a retry with the remembered text or the fallback;
   * - `SUCCESS` reports success and stops;
   * - anything else is ignored.
   */
  function StepLine(line: string, lastInfo: Option<string>, room: Option<nat>,
                    password: string, cookie: string): (s: StepResult)
    ensures s.line == line
    ensures s.events == (if s.writes == [] then LineEvents(line, lastInfo, cookie) else [])
    ensures IsPasswordPrompt(line) ==> s.writes == WriteChunks([password, Newline], room).written
    ensures !IsPasswordPrompt(line) ==> s.writes == []
    ensures s.next.Halt? <==>
      IsSuccessLine(line) || (IsPasswordPrompt(line) && !WriteChunks([password, Newline], room).ok)
    ensures s.next.Halt? ==> s.next.stop == (if IsSuccessLine(line) then Authorized else Broken(Io(WriteOp)))
    ensures s.next.Continue? ==>
      s.next.lastInfo == (if LockoutOf(line).Some? then LockoutOf(line) else lastInfo)
    ensures s.next.Continue? ==>
      s.next.room == (if IsPasswordPrompt(line) then WriteChunks([password, Newline], room).room else room)
  {
    match Classify(line)
    case EchoOff(prompt) =>
      if Trim(prompt) == PasswordPrompt then
        var w := WriteChunks([password, Newline], room);
        StepResult(line, w.written, [], if w.ok then Continue(lastInfo, w.room) else Halt(Broken(Io(WriteOp))))
      else StepResult(line, [], [], Continue(lastInfo, room))
    case TextInfo(_) =>
      (match LockoutOf(line)
       case Some(msg) => StepResult(line, [], [AuthorizationRetry(cookie, Some(msg))], Continue(Some(msg), room))
       case None => StepResult(line, [], [], Continue(lastInfo, room)))
    case Failure =>
      StepResult(line, [], [AuthorizationRetry(cookie, Some(lastInfo.GetOr(FallbackRetry)))], Continue(lastInfo, room))
    case Success => StepResult(line, [], [AuthorizationSucceeded(cookie)], Halt(Authorized))
    case Unrecognised => StepResult(line, [], [], Continue(lastInfo, room))
  }

  /** An event a conversation may emit: a retry with a message, or success, for `cookie`. */
  predicate ConversationEvent(e: AgentEvent, cookie: string) {
    e == AuthorizationSucceeded(cookie) || (e.AuthorizationRetry? && e.cookie == cookie && e.retryMessage.Some?)
  }

  /**
   * Interpret the helper's output from `lines` on. A clean end of output
   * flushes and ends the attempt; a read error ends it with an I/O error;
   * output that stays open leaves it blocked in the next read.
   * Every event is a retry or success for this cookie, and success is
   * reported exactly when the conversation is authorized, as its last effect.
   */
  function Converse(lines: seq<string>, end: StreamEnd, lastInfo: Option<string>, room: Option<nat>,
                    password: string, cookie: string): (c: Conversation)
    ensures forall e :: e in Emitted(c.effects) ==> ConversationEvent(e, cookie)
    ensures c.stop.Authorized? ==> |c.effects| > 0 && c.effects[|c.effects| - 1] == Emit(AuthorizationSucceeded(cookie))
    ensures AuthorizationSucceeded(cookie) in Emitted(c.effects) <==> c.stop.Authorized?
    decreases |lines|
  {
    if lines == [] then
      match end
      case Eof => Conversation([Flush], StreamEnded)
      case ReadError => Conversation([], Broken(Io(ReadOp)))
      case Silent => Conversation([], Stalled)
    else
      var s := StepLine(lines[0], lastInfo, room, password, cookie);
      match s.next
      case Halt(stop) =>
        HaltReports(lines[0], lastInfo, room, password, cookie);
        Conversation(StepEffects(s), stop)
      case Continue(lastInfo', room') =>
        ContinueReports(lines[0], lastInfo, room, password, cookie);
        var rest := Converse(lines[1..], end, lastInfo', room', password, cookie);
        ThenReports(StepEffects(s), rest, cookie);
        Then(StepEffects(s), rest)
  }

  /** A conversation whose events are all retries or success for `cookie`, success coming last and only when authorized. */
  predicate Reported(c: Conversation, cookie: string) {
    && (forall e :: e in Emitted(c.effects) ==> ConversationEvent(e, cookie))
    && (c.stop.Authorized? ==> |c.effects| > 0 && c.effects[|c.effects| - 1] == Emit(AuthorizationSucceeded(cookie)))
    && (AuthorizationSucceeded(cookie) in Emitted(c.effects) <==> c.stop.Authorized?)
  }

  /** The events of a line are retries or success for `cookie`, success exactly for a `SUCCESS` line. */
  lemma LineEventsReport(line: string, lastInfo: Option<string>, cookie: string)
    ensures forall e :: e in LineEvents(line, lastInfo, cookie) ==> ConversationEvent(e, cookie)
    ensures AuthorizationSucceeded(cookie) in LineEvents(line, lastInfo, cookie) <==> IsSuccessLine(line)
    ensures IsSuccessLine(line) ==> LineEvents(line, lastInfo, cookie) == [AuthorizationSucceeded(cookie)]
  {
  }

  lemma StepEvents(line: string, lastInfo: Option<string>, room: Option<nat>, password: string, cookie: string)
    ensures var s := StepLine(line, lastInfo, room, password, cookie);
      && (forall e :: e in s.events ==> ConversationEvent(e, cookie))
      && (AuthorizationSucceeded(cookie) in s.events <==> IsSuccessLine(line))
      && (IsSuccessLine(line) ==> s.events == [AuthorizationSucceeded(cookie)] && s.writes == [])
  {
    LineEventsReport(line, lastInfo, cookie);
  }

  /** The last effect of a step that emits exactly success. */
  lemma SucceededLast(s: StepResult, cookie: string)
    requires s.events == [AuthorizationSucceeded(cookie)]
    ensures var effects := StepEffects(s); |effects| > 0 && effects[|effects| - 1] == Emit(AuthorizationSucceeded(cookie))
  {
    var effects := StepEffects(s);
    assert effects[|effects| - 1] == EmitEffects(s.events)[0];
  }

  /** A step that stops the conversation reports as a conversation would. */
  lemma HaltReports(line: string, lastInfo: Option<string>, room: Option<nat>, password: string, cookie: string)
    requires StepLine(line, lastInfo, room, password, cookie).next.Halt?
    ensures var s := StepLine(line, lastInfo, room, password, cookie);
      Reported(Conversation(StepEffects(s), s.next.stop), cookie)
  {
    var s := StepLine(line, lastInfo, room, password, cookie);
    StepEvents(line, lastInfo, room, password, cookie);
    if IsSuccessLine(line) {
      SuccessReported(s, cookie);
    } else {
      FailureReported(s, cookie);
    }
  }

  lemma SuccessReported(s: StepResult, cookie: string)
    requires s.events == [AuthorizationSucceeded(cookie)] && s.next == Halt(Authorized)
    ensures Reported(Conversation(StepEffects(s), Authorized), cookie)
  {
    StepProjections(s);
    SucceededLast(s, cookie);
  }

  lemma FailureReported(s: StepResult, cookie: string)
    requires s.next.Halt? && !s.next.stop.Authorized?
    requires forall e :: e in s.events ==> ConversationEvent(e, cookie)
    requires AuthorizationSucceeded(cookie) !in s.events
    ensures Reported(Conversation(StepEffects(s), s.next.stop), cookie)
  {
    StepProjections(s);
  }

  /** A step that lets the conversation go on reports only retries. */
  lemma ContinueReports(line: string, lastInfo: Option<string>, room: Option<nat>, password: string, cookie: string)
    requires StepLine(line, lastInfo, room, password, cookie).next.Continue?
    ensures var s := StepLine(line, lastInfo, room, password, cookie);
      && (forall e :: e in Emitted(StepEffects(s)) ==> ConversationEvent(e, cookie))
      && AuthorizationSucceeded(cookie) !in Emitted(StepEffects(s))
  {
    var s := StepLine(line, lastInfo, room, password, cookie);
    StepProjections(s);
    StepEvents(line, lastInfo, room, password, cookie);
  }

  /** Effects without success before a reported conversation leave it reported. */
  lemma ThenReports(effects: seq<Effect>, rest: Conversation, cookie: string)
    requires forall e :: e in Emitted(effects) ==> ConversationEvent(e, cookie)
    requires AuthorizationSucceeded(cookie) !in Emitted(effects)
    requires Reported(rest, cookie)
    ensures Reported(Then(effects, rest), cookie)
  {
    EmittedAppend(effects, rest.effects);
    var all := effects + rest.effects;
    if rest.stop.Authorized? {
      assert all[|all| - 1] == rest.effects[|rest.effects| - 1];
    }
  }

  // ---------------------------------------------------------------------
  // One attempt

  /** Reaching the helper: the socket if it accepts, else a spawned helper, else an error. */
  datatype Opening = Opened(effects: seq<Effect>, transport: Transport) | OpenFailed(err: PolkitError)

  function Open(env: AttemptEnv, user: string, helperPath: string): (o: Opening)
    ensures o.Opened? && o.transport == Socket <==> env.socketUp
    ensures o.Opened? && o.transport == Spawned <==> !env.socketUp && env.spawnOk
    ensures o.Opened? && o.transport == Socket ==> o.effects == [Connect(SocketPath)]
    ensures o.Opened? && o.transport == Spawned ==> o.effects == [Spawn(helperPath, [user], HelperEnv)]
    ensures o.OpenFailed? ==> o.err == Failed(SpawnFailed)
  {
    if env.socketUp then Opened([Connect(SocketPath)], Socket)
    else if env.spawnOk then Opened([Spawn(helperPath, [user], HelperEnv)], Spawned)
    else OpenFailed(Failed(SpawnFailed))
  }

  /** One password attempt: open, hand-shake, converse with `last_info` starting empty. */
  function Attempt(env: AttemptEnv, user: string, password: string, cookie: string, helperPath: string): Conversation {
    match Open(env, user, helperPath)
    case OpenFailed(err) => Conversation([], Broken(err))
    case Opened(openEffects, transport) =>
      var hs := WriteChunks(Handshake(transport, user, cookie), env.room);
      if hs.ok then Then(openEffects + WriteEffects(hs.written), Converse(env.lines, env.end, None, hs.room, password, cookie))
      else Conversation(openEffects + WriteEffects(hs.written), Broken(Io(WriteOp)))
  }
}

=== FILE: helper_facts.dfy ===
/**
 * What one password attempt does, stated against reference definitions
 * that do not follow the conversation's own state: which lines are read,
 * what is written, which events are emitted, and how the attempt stops.
 */
module HelperFacts {
  import opened Wrappers
  import opened Text
  import opened Events
  import opened Helper

  /** The position of the first `SUCCESS` line, if there is one. */
  function FirstSuccess(lines: seq<string>): (r: Option<nat>)
    ensures r.Some? ==> r.value < |lines| && IsSuccessLine(lines[r.value])
    ensures r.Some? ==> forall i :: 0 <= i < r.value ==> !IsSuccessLine(lines[i])
    ensures r.None? ==> forall i :: 0 <= i < |lines| ==> !IsSuccessLine(lines[i])
  {
    if lines == [] then None
    else if IsSuccessLine(lines[0]) then Some(0)
    else
      match FirstSuccess(lines[1..])
      case None =>
        assert forall i :: 1 <= i < |lines| ==> lines[i] == lines[1..][i - 1];
        None
      case Some(k) =>
        assert forall i :: 1 <= i < |lines| ==> lines[i] == lines[1..][i - 1];
        Some(k + 1)
  }

  /** How many lines the agent reads: up to and including the first `SUCCESS`, else all. */
  function Processed(lines: seq<string>): (n: nat)
    ensures n <= |lines|
  {
    match FirstSuccess(lines)
    case Some(k) => k + 1
    case None => |lines|
  }

  /** The number of `Password:` prompts among `lines`. */
  function CountPrompts(lines: seq<string>): (n: nat)
    ensures n <= |lines|
  {
    if lines == [] then 0
    else (if IsPasswordPrompt(lines[0]) then 1 else 0) + CountPrompts(lines[1..])
  }

  /** `s` repeated `k` times. */
  function Repeat(s: seq<string>, k: nat): seq<string> {
    if k == 0 then [] else s + Repeat(s, k - 1)
  }

  /** The most recent lockout text among `lines`, looking back from the last line. */
  function LastLockout(lines: seq<string>): Option<string> {
    if lines == [] then None
    else if LockoutOf(lines[|lines| - 1]).Some? then LockoutOf(lines[|lines| - 1])
    else LastLockout(lines[..|lines| - 1])
  }

  /**
   * The events line `j` gives rise to, in terms of the lines before it
   * only: success, a retry with the latest earlier lockout text (or the
   * fallback) for `FAILURE`, a retry with its own text for a lockout line.
   */
  function EventAt(lines: seq<string>, j: nat, cookie: string): seq<AgentEvent>
    requires j < |lines|
  {
    if IsSuccessLine(lines[j]) then [AuthorizationSucceeded(cookie)]
    else if Classify(lines[j]).Failure? then [AuthorizationRetry(cookie, Some(LastLockout(lines[..j]).GetOr(FallbackRetry)))]
    else
      match LockoutOf(lines[j])
      case Some(msg) => [AuthorizationRetry(cookie, Some(msg))]
      case None => []
  }

  /** The events of lines `j` onwards, stopping after the first `SUCCESS`. */
  function EventsFrom(lines: seq<string>, j: nat, cookie: string): seq<AgentEvent>
    decreases |lines| - j
  {
    if j >= |lines| then []
    else EventAt(lines, j, cookie) + (if IsSuccessLine(lines[j]) then [] else EventsFrom(lines, j + 1, cookie))
  }

  /** How an attempt against a helper that accepts every write stops. */
  function HealthyStop(lines: seq<string>, end: StreamEnd): Stop {
    if FirstSuccess(lines).Some? then Authorized
    else
      match end
      case Eof => StreamEnded
      case ReadError => Broken(Io(ReadOp))
      case Silent => Stalled
  }

  // ---------------------------------------------------------------------

  /** Processing a non-`SUCCESS` line and then the rest processes one line more than the rest. */
  lemma ProcessedCons(lines: seq<string>)
    requires lines != [] && !IsSuccessLine(lines[0])
    ensures Processed(lines) == Processed(lines[1..]) + 1
    ensures lines[..Processed(lines)] == [lines[0]] + lines[1..][..Processed(lines[1..])]
  {
  }

  /** The conversation after one line that does not stop it. */
  lemma ConverseCons(lines: seq<string>, end: StreamEnd, lastInfo: Option<string>, room: Option<nat>,
                     password: string, cookie: string)
    requires lines != []
    requires StepLine(lines[0], lastInfo, room, password, cookie).next.Continue?
    ensures var s := StepLine(lines[0], lastInfo, room, password, cookie);
      Converse(lines, end, lastInfo, room, password, cookie)
      == Then(StepEffects(s), Converse(lines[1..], end, s.next.lastInfo, s.next.room, password, cookie))
  {
  }

  lemma {:induction false} HealthyReads(lines: seq<string>, end: StreamEnd, lastInfo: Option<string>,
                                        password: string, cookie: string)
    ensures LinesRead(Converse(lines, end, lastInfo, None, password, cookie).effects) == lines[..Processed(lines)]
  {
    if lines == [] {
      assert LinesRead([Flush]) == [];
    } else {
      var s := StepLine(lines[0], lastInfo, None, password, cookie);
      StepProjections(s);
      if s.next.Halt? {
        assert lines[..Processed(lines)] == [lines[0]];
      } else {
        ConverseCons(lines, end, lastInfo, None, password, cookie);
        var rest := Converse(lines[1..], end, s.next.lastInfo, None, password, cookie);
        HealthyReads(lines[1..], end, s.next.lastInfo, password, cookie);
        LinesReadAppend(StepEffects(s), rest.effects);
        ProcessedCons(lines);
      }
    }
  }

  /** The password and a newline for every `Password:` prompt among `lines`, in order. */
  function Replies(lines: seq<string>, password: string): seq<string> {
    if lines == [] then []
    else (if IsPasswordPrompt(lines[0]) then [password, Newline] else []) + Replies(lines[1..], password)
  }

  lemma RepliesCons(line: string, rest: seq<string>, password: string)
    ensures Replies([line] + rest, password)
         == (if IsPasswordPrompt(line) then [password, Newline] else []) + Replies(rest, password)
  {
    assert ([line] + rest)[1..] == rest;
  }

  lemma RepeatCons(password: string, k: nat)
    ensures Repeat([password, Newline], k + 1) == [password, Newline] + Repeat([password, Newline], k)
  {
  }

  lemma RepliesUnfold(lines: seq<string>, password: string)
    requires lines != []
    ensures Replies(lines, password)
         == (if IsPasswordPrompt(lines[0]) then [password, Newline] else []) + Replies(lines[1..], password)
  {
  }

  lemma CountPromptsUnfold(lines: seq<string>)
    requires lines != []
    ensures CountPrompts(lines) == (if IsPasswordPrompt(lines[0]) then 1 else 0) + CountPrompts(lines[1..])
  {
  }

  lemma RepliesStep(prompt: bool, tail: seq<string>, k: nat, password: string)
    requires tail == Repeat([password, Newline], k)
    ensures (if prompt then [password, Newline] else []) + tail
         == Repeat([password, Newline], (if prompt then 1 else 0) + k)
  {
    if prompt {
      RepeatCons(password, k);
    } else {
      assert [] + tail == tail;
    }
  }

  /** The replies are one password line per prompt: as many as there are prompts, and nothing else. */
  lemma {:induction false} RepliesRepeat(lines: seq<string>, password: string)
    ensures Replies(lines, password) == Repeat([password, Newline], CountPrompts(lines))
  {
    if lines != [] {
      RepliesRepeat(lines[1..], password);
      RepliesUnfold(lines, password);
      CountPromptsUnfold(lines);
      RepliesStep(IsPasswordPrompt(lines[0]), Replies(lines[1..], password), CountPrompts(lines[1..]), password);
    }
  }

  lemma {:induction false} HealthyWrites(lines: seq<string>, end: StreamEnd, lastInfo: Option<string>,
                                         password: string, cookie: string)
    ensures Written(Converse(lines, end, lastInfo, None, password, cookie).effects)
         == Replies(lines[..Processed(lines)], password)
  {
    if lines == [] {
      assert Written([Flush]) == [];
      assert lines[..0] == [];
    } else {
      var s := StepLine(lines[0], lastInfo, None, password, cookie);
      StepProjections(s);
      if s.next.Halt? {
        assert lines[..Processed(lines)] == [lines[0]];
        RepliesCons(lines[0], [], password);
      } else {
        ConverseCons(lines, end, lastInfo, None, password, cookie);
        var rest := Converse(lines[1..], end, s.next.lastInfo, None, password, cookie);
        HealthyWrites(lines[1..], end, s.next.lastInfo, password, cookie);
        WrittenAppend(StepEffects(s), rest.effects);
        ProcessedCons(lines);
        RepliesCons(lines[0], lines[1..][..Processed(lines[1..])], password);
      }
    }
  }

  lemma {:induction false} HealthyStops(lines: seq<string>, end: StreamEnd, lastInfo: Option<string>,
                                        password: string, cookie: string)
    ensures Converse(lines, end, lastInfo, None, password, cookie).stop == HealthyStop(lines, end)
  {
    if lines != [] {
      var s := StepLine(lines[0], lastInfo, None, password, cookie);
      if s.next.Continue? {
        ConverseCons(lines, end, lastInfo, None, password, cookie);
        HealthyStops(lines[1..], end, s.next.lastInfo, password, cookie);
        assert FirstSuccess(lines).Some? <==> FirstSuccess(lines[1..]).Some?;
      }
    }
  }

  /**
   * Against a helper that accepts every write, the agent reads exactly the
   * lines up to the first `SUCCESS`, writes the password and a newline
   * once per `Password:` prompt among them and nothing else, and stops
   * authorized on `SUCCESS`, otherwise back at the event loop on a clean
   * end of output, with an I/O error on a read error, or blocked on output
   * that stays open.
   */
  lemma HealthyConversation(lines: seq<string>, end: StreamEnd, lastInfo: Option<string>,
                            password: string, cookie: string)
    ensures var c := Converse(lines, end, lastInfo, None, password, cookie);
      && LinesRead(c.effects) == lines[..Processed(lines)]
      && Written(c.effects) == Repeat([password, Newline], CountPrompts(lines[..Processed(lines)]))
      && c.stop == HealthyStop(lines, end)
  {
    HealthyReads(lines, end, lastInfo, password, cookie);
    HealthyWrites(lines, end, lastInfo, password, cookie);
    RepliesRepeat(lines[..Processed(lines)], password);
    HealthyStops(lines, end, lastInfo, password, cookie);
  }

  /** Talking to the helper takes nothing from the consumer's channel. */
  lemma {:induction false} ConverseTakesNothing(lines: seq<string>, end: StreamEnd, lastInfo: Option<string>,
                                                room: Option<nat>, password: string, cookie: string)
    ensures Received(Converse(lines, end, lastInfo, room, password, cookie).effects) == []
    decreases |lines|
  {
    if lines == [] {
      assert Received([Flush]) == [];
    } else {
      var s := StepLine(lines[0], lastInfo, room, password, cookie);
      StepProjections(s);
      if s.next.Continue? {
        ConverseCons(lines, end, lastInfo, room, password, cookie);
        ConverseTakesNothing(lines[1..], end, s.next.lastInfo, s.next.room, password, cookie);
        ReceivedAppend(StepEffects(s), Converse(lines[1..], end, s.next.lastInfo, s.next.room, password, cookie).effects);
      }
    }
  }

  /** The latest lockout text up to and including line `j`. */
  lemma LastLockoutStep(lines: seq<string>, j: nat)
    requires j < |lines|
    ensures LastLockout(lines[..j + 1]) == if LockoutOf(lines[j]).Some? then LockoutOf(lines[j]) else LastLockout(lines[..j])
  {
    assert lines[..j + 1][..j] == lines[..j];
  }

  /**
   * The conversation's remembered `last_info` is the latest lockout text
   * read so far: from line `j` on, with the lockout text of the lines
   * before `j` remembered, it emits exactly the reference events.
   */
  lemma {:induction false} ConversationEventsFrom(lines: seq<string>, j: nat, end: StreamEnd, password: string, cookie: string)
    requires j <= |lines|
    ensures Emitted(Converse(lines[j..], end, LastLockout(lines[..j]), None, password, cookie).effects)
         == EventsFrom(lines, j, cookie)
    decreases |lines| - j
  {
    if j == |lines| {
      assert lines[j..] == [];
      assert Emitted([Flush]) == [];
    } else if StepLine(lines[j], LastLockout(lines[..j]), None, password, cookie).next.Continue? {
      ConversationEventsFrom(lines, j + 1, end, password, cookie);
      ContinueCase(lines, j, end, password, cookie);
    } else {
      HaltCase(lines, j, end, password, cookie);
    }
  }

  /** The step from line `j` when the conversation goes on after it. */
  lemma ContinueCase(lines: seq<string>, j: nat, end: StreamEnd, password: string, cookie: string)
    requires j < |lines|
    requires StepLine(lines[j], LastLockout(lines[..j]), None, password, cookie).next.Continue?
    requires Emitted(Converse(lines[j + 1..], end, LastLockout(lines[..j + 1]), None, password, cookie).effects)
          == EventsFrom(lines, j + 1, cookie)
    ensures Emitted(Converse(lines[j..], end, LastLockout(lines[..j]), None, password, cookie).effects)
         == EventsFrom(lines, j, cookie)
  {
    var li := LastLockout(lines[..j]);
    var s := StepLine(lines[j], li, None, password, cookie);
    SuffixParts(lines, j);
    StepProjections(s);
    StepEventAt(lines, j, password, cookie);
    ConverseCons(lines[j..], end, li, None, password, cookie);
    LastLockoutStep(lines, j);
    EmittedAppend(StepEffects(s), Converse(lines[j + 1..], end, s.next.lastInfo, None, password, cookie).effects);
  }

  /** The step from line `j` when the conversation stops there. */
  lemma HaltCase(lines: seq<string>, j: nat, end: StreamEnd, password: string, cookie: string)
    requires j < |lines|
    requires StepLine(lines[j], LastLockout(lines[..j]), None, password, cookie).next.Halt?
    ensures Emitted(Converse(lines[j..], end, LastLockout(lines[..j]), None, password, cookie).effects)
         == EventsFrom(lines, j, cookie)
  {
    var s := StepLine(lines[j], LastLockout(lines[..j]), None, password, cookie);
    SuffixParts(lines, j);
    StepProjections(s);
    StepEventAt(lines, j, password, cookie);
    assert IsSuccessLine(lines[j]);
    assert EventsFrom(lines, j, cookie) == EventAt(lines, j, cookie) + [];
  }

  lemma SuffixParts(lines: seq<string>, j: nat)
    requires j < |lines|
    ensures lines[j..] != [] && lines[j..][0] == lines[j] && lines[j..][1..] == lines[j + 1..]
  {
  }

  /** With every write accepted, the step on line `j` emits the reference events of line `j`. */
  lemma StepEventAt(lines: seq<string>, j: nat, password: string, cookie: string)
    requires j < |lines|
    ensures StepLine(lines[j], LastLockout(lines[..j]), None, password, cookie).events == EventAt(lines, j, cookie)
  {
  }

  /** Each attempt starts with nothing remembered, so it emits the reference events of its lines. */
  lemma ConversationEvents(lines: seq<string>, end: StreamEnd, password: string, cookie: string)
    ensures Emitted(Converse(lines, end, None, None, password, cookie).effects) == EventsFrom(lines, 0, cookie)
  {
    assert lines[0..] == lines;
    assert lines[..0] == [];
    ConversationEventsFrom(lines, 0, end, password, cookie);
  }
}

=== FILE: identities.dfy ===
/**
 * Resolving the candidate identities of a BeginAuthentication request to
 * the account names shown to the user (src/dbus.rs, the loop before the
 * Started event). The account database is an oracle from uid to lookup
 * outcome.
 */
module Identities {
  import opened Wrappers

  newtype u32 = x: int | 0 <= x < 0x1_0000_0000

  /** A D-Bus variant as it appears in an identity's details; only `U32` is inspected. */
  datatype Value = U32(n: u32) | Str(s: string) | OtherValue

  /** A polkit identity: its kind (`"unix-user"`, `"unix-group"`, ...) and its details. */
  datatype Identity = Identity(kind: string, details: map<string, Value>)

  /** An account name as stored: decodable as UTF-8 or not. */
  datatype AccountName = Utf8Name(s: string) | NonUtf8Name

  /** The outcome of looking a uid up in the account database. */
  datatype Lookup = LookupError | NoSuchUser | Account(name: AccountName)

  type Passwd = u32 -> Lookup

  const UnixUser := "unix-user"
  const UidKey := "uid"

  /**
   * The identity is a `unix-user` whose `uid` detail is a `U32` that the
   * account database knows under a name that decodes as UTF-8.
   */
  predicate HasName(id: Identity, passwd: Passwd) {
    && id.kind == UnixUser
    && UidKey in id.details && id.details[UidKey].U32?
    && passwd(id.details[UidKey].n).Account?
    && passwd(id.details[UidKey].n).name.Utf8Name?
  }

  /**
   * The display name of one identity, if it has one: a `unix-user` whose
   * `uid` detail is a `U32`, found in the account database under a name
   * that decodes as UTF-8.
   */
  function NameOf(id: Identity, passwd: Passwd): (r: Option<string>)
    ensures r.Some? <==> HasName(id, passwd)
    ensures r.Some? ==> r.value == passwd(id.details[UidKey].n).name.s
  {
    if id.kind == UnixUser && UidKey in id.details then
      match id.details[UidKey]
      case U32(uid) =>
        (match passwd(uid)
         case Account(Utf8Name(n)) => Some(n)
         case _ => None)
      case _ => None
    else None
  }

  /**
   * The names shown to the user, in request order; an identity without a
   * display name is skipped and never aborts the request.
   */
  function ResolveNames(ids: seq<Identity>, passwd: Passwd): (names: seq<string>)
    ensures |names| <= |ids|
  {
    if ids == [] then []
    else
      var rest := ResolveNames(ids[1..], passwd);
      match NameOf(ids[0], passwd)
      case Some(n) => [n] + rest
      case None => rest
  }

  /** Resolving a concatenation resolves each part. */
  lemma {:induction false} ResolveNamesAppend(a: seq<Identity>, b: seq<Identity>, passwd: Passwd)
    ensures ResolveNames(a + b, passwd) == ResolveNames(a, passwd) + ResolveNames(b, passwd)
  {
    if a == [] {
      assert a + b == b;
    } else {
      assert (a + b)[1..] == a[1..] + b;
      ResolveNamesAppend(a[1..], b, passwd);
    }
  }

  /** An identity without a display name contributes nothing, wherever it stands. */
  lemma SkippedIdentity(a: seq<Identity>, id: Identity, b: seq<Identity>, passwd: Passwd)
    requires !HasName(id, passwd)
    ensures ResolveNames(a + [id] + b, passwd) == ResolveNames(a + b, passwd)
  {
    ResolveNamesAppend(a + [id], b, passwd);
    ResolveNamesAppend(a, [id], passwd);
    ResolveNamesAppend(a, b, passwd);
    assert [id][1..] == [];
  }

  predicate StrictlyIncreasing(idx: seq<nat>) {
    forall k, l :: 0 <= k < l < |idx| ==> idx[k] < idx[l]
  }

  /** Every position moved one place right. */
  function Shift(idx: seq<nat>): (r: seq<nat>)
    ensures |r| == |idx|
    ensures forall k :: 0 <= k < |r| ==> r[k] == idx[k] + 1
    ensures 0 !in r
    ensures StrictlyIncreasing(idx) ==> StrictlyIncreasing(r)
    ensures forall i: nat :: i + 1 in r <==> i in idx
  {
    var r := seq(|idx|, k requires 0 <= k < |idx| => idx[k] + 1);
    assert forall i: nat :: i in idx ==> i + 1 in r by {
      forall i: nat | i in idx
        ensures i + 1 in r
      {
        var k :| 0 <= k < |idx| && idx[k] == i;
        assert r[k] == i + 1;
      }
    }
    r
  }

  /**
   * `idx` picks, in increasing order, exactly the positions of `ids` that
   * have a display name, and `names` lists those display names.
   */
  predicate Selects(ids: seq<Identity>, passwd: Passwd, names: seq<string>, idx: seq<nat>) {
    && StrictlyIncreasing(idx)
    && |idx| == |names|
    && (forall k :: 0 <= k < |idx| ==> idx[k] < |ids| && NameOf(ids[idx[k]], passwd) == Some(names[k]))
    && (forall i :: 0 <= i < |ids| ==> (HasName(ids[i], passwd) <==> i in idx))
  }

  /** A selection for the tail, shifted one place, selects for the whole list when the head has no name. */
  lemma ShiftedSelects(ids: seq<Identity>, passwd: Passwd, names: seq<string>, tail: seq<nat>)
    requires ids != [] && !HasName(ids[0], passwd)
    requires Selects(ids[1..], passwd, names, tail)
    ensures Selects(ids, passwd, names, Shift(tail))
  {
    var shifted := Shift(tail);
    forall k | 0 <= k < |shifted|
      ensures shifted[k] < |ids| && NameOf(ids[shifted[k]], passwd) == Some(names[k])
    {
      assert ids[shifted[k]] == ids[1..][tail[k]];
    }
    forall i | 0 <= i < |ids|
      ensures HasName(ids[i], passwd) <==> i in shifted
    {
      if i > 0 {
        assert ids[i] == ids[1..][i - 1];
        assert (i - 1) + 1 == i;
      }
    }
  }

  /** A selection for the tail, shifted, selects for the whole list after the head's name. */
  lemma ConsSelects(ids: seq<Identity>, passwd: Passwd, names: seq<string>, tail: seq<nat>)
    requires ids != [] && HasName(ids[0], passwd)
    requires Selects(ids[1..], passwd, names, tail)
    ensures Selects(ids, passwd, [NameOf(ids[0], passwd).value] + names, [0] + Shift(tail))
  {
    ConsIncreasing(tail);
    ConsNames(ids, passwd, names, tail);
    ConsPositions(ids, passwd, names, tail);
  }

  lemma ConsIncreasing(tail: seq<nat>)
    requires StrictlyIncreasing(tail)
    ensures StrictlyIncreasing([0] + Shift(tail))
  {
    var shifted := Shift(tail);
    var idx := [0] + shifted;
    forall k, l | 0 <= k < l < |idx|
      ensures idx[k] < idx[l]
    {
      assert idx[l] == shifted[l - 1] == tail[l - 1] + 1;
      if k > 0 {
        assert idx[k] == shifted[k - 1];
      }
    }
  }

  lemma ConsNames(ids: seq<Identity>, passwd: Passwd, names: seq<string>, tail: seq<nat>)
    requires ids != [] && HasName(ids[0], passwd)
    requires Selects(ids[1..], passwd, names, tail)
    ensures forall k :: 0 <= k < 1 + |tail| ==>
      ([0] + Shift(tail))[k] < |ids| &&
      NameOf(ids[([0] + Shift(tail))[k]], passwd) == Some(([NameOf(ids[0], passwd).value] + names)[k])
  {
    var shifted := Shift(tail);
    var idx := [0] + shifted;
    var all := [NameOf(ids[0], passwd).value] + names;
    forall k | 0 <= k < |idx|
      ensures idx[k] < |ids| && NameOf(ids[idx[k]], passwd) == Some(all[k])
    {
      if k > 0 {
        assert idx[k] == shifted[k - 1] == tail[k - 1] + 1;
        assert all[k] == names[k - 1];
        assert ids[idx[k]] == ids[1..][tail[k - 1]];
      }
    }
  }

  lemma ConsPositions(ids: seq<Identity>, passwd: Passwd, names: seq<string>, tail: seq<nat>)
    requires ids != [] && HasName(ids[0], passwd)
    requires Selects(ids[1..], passwd, names, tail)
    ensures forall i :: 0 <= i < |ids| ==> (HasName(ids[i], passwd) <==> i in [0] + Shift(tail))
  {
    var shifted := Shift(tail);
    var idx := [0] + shifted;
    forall i | 0 <= i < |ids|
      ensures HasName(ids[i], passwd) <==> i in idx
    {
      if i == 0 {
        assert idx[0] == 0;
      } else {
        assert ids[i] == ids[1..][i - 1];
        assert (i - 1) + 1 == i;
        assert i in idx <==> i in shifted;
      }
    }
  }

  /**
   * The resolved names are exactly the display names of the identities
   * that have one, in request order: there is an increasing choice of
   * positions that picks precisely those identities.
   */
  lemma {:induction false} ResolveNamesSelects(ids: seq<Identity>, passwd: Passwd) returns (idx: seq<nat>)
    ensures Selects(ids, passwd, ResolveNames(ids, passwd), idx)
  {
    if ids == [] {
      idx := [];
    } else {
      var tail := ResolveNamesSelects(ids[1..], passwd);
      if HasName(ids[0], passwd) {
        ConsSelects(ids, passwd, ResolveNames(ids[1..], passwd), tail);
        idx := [0] + Shift(tail);
      } else {
        ShiftedSelects(ids, passwd, ResolveNames(ids[1..], passwd), tail);
        idx := Shift(tail);
      }
    }
  }

  /** What the source's loop does with one identity, including the map lookup that can panic. */
  datatype Resolution = Names(names: seq<string>) | MissingUidPanic(position: nat)

  /**
   * The loop as written: the `uid` detail of a `unix-user` identity is read
   * with the map index operator, which panics when the key is absent.
   */
  function ResolveNamesAsWritten(ids: seq<Identity>, passwd: Passwd): (r: Resolution)
    ensures r.MissingUidPanic? ==>
      r.position < |ids| && ids[r.position].kind == UnixUser && UidKey !in ids[r.position].details
  {
    if ids == [] then Names([])
    else if ids[0].kind == UnixUser && UidKey !in ids[0].details then MissingUidPanic(0)
    else
      match ResolveNamesAsWritten(ids[1..], passwd)
      case MissingUidPanic(p) => MissingUidPanic(p + 1)
      case Names(rest) =>
        match NameOf(ids[0], passwd)
        case Some(n) => Names([n] + rest)
        case None => Names(rest)
  }

  predicate EveryUserHasUid(ids: seq<Identity>) {
    forall i :: 0 <= i < |ids| && ids[i].kind == UnixUser ==> UidKey in ids[i].details
  }

  /**
   * Where every `unix-user` identity carries a uid, the loop as written
   * agrees with `ResolveNames`; otherwise it panics.
   */
  lemma {:induction false} AsWrittenAgrees(ids: seq<Identity>, passwd: Passwd)
    ensures EveryUserHasUid(ids) ==> ResolveNamesAsWritten(ids, passwd) == Names(ResolveNames(ids, passwd))
    ensures !EveryUserHasUid(ids) ==> ResolveNamesAsWritten(ids, passwd).MissingUidPanic?
  {
    if ids != [] {
      AsWrittenAgrees(ids[1..], passwd);
      if EveryUserHasUid(ids) {
        assert EveryUserHasUid(ids[1..]) by {
          forall i | 0 <= i < |ids[1..]| && ids[1..][i].kind == UnixUser
            ensures UidKey in ids[1..][i].details
          {
            assert ids[1..][i] == ids[i + 1];
          }
        }
      } else {
        var i :| 0 <= i < |ids| && ids[i].kind == UnixUser && UidKey !in ids[i].details;
        if i > 0 {
          assert ids[1..][i - 1] == ids[i];
        }
      }
    }
  }

  /**
   * A `unix-user` identity without a `uid` detail makes the loop as
   * written panic, where the request should simply skip that identity.
   */
  lemma MissingUidPanics(passwd: Passwd)
    ensures ResolveNamesAsWritten([Identity(UnixUser, map[])], passwd) == MissingUidPanic(0)
    ensures ResolveNames([Identity(UnixUser, map[])], passwd) == []
  {
  }
}

=== FILE: scenarios.dfy ===
/**
 * Worked examples: short helper conversations, and a whole call, on
 * concrete lines.
 */
module Scenarios {
  import opened Wrappers
  import opened Text
  import opened Events
  import opened Helper
  import opened HelperFacts
  import opened AttemptFacts
  import opened Agent
  import opened AgentFacts

  // ---------------------------------------------------------------------
  // Classifying the lines the examples use

  lemma PrefixCancels(p: string, a: string, b: string)
    requires p + a == p + b
    ensures a == b
  {
    assert a == (p + a)[|p|..];
    assert b == (p + b)[|p|..];
  }

  lemma StartsWithPrefix(p: string, rest: string)
    ensures StartsWith(p + rest, p)
  {
    assert (p + rest)[..|p|] == p;
  }

  lemma ClassifyInfo(info: string)
    ensures Classify(TextInfoPrefix + info) == TextInfo(info)
  {
    var line := TextInfoPrefix + info;
    StartsWithPrefix(TextInfoPrefix, info);
    PrefixesExclusive(line, EchoOffPrefix, TextInfoPrefix, 4);
    PrefixCancels(TextInfoPrefix, Classify(line).info, info);
  }

  lemma ClassifyFailure()
    ensures Classify(FailurePrefix) == Failure
  {
    StartsWithPrefix(FailurePrefix, []);
    assert FailurePrefix + [] == FailurePrefix;
  }

  lemma ClassifySuccess()
    ensures Classify(SuccessPrefix) == Success
  {
    StartsWithPrefix(SuccessPrefix, []);
    assert SuccessPrefix + [] == SuccessPrefix;
  }

  /** Text that neither starts nor ends with whitespace is its own trim. */
  lemma TrimUnpadded(x: string)
    requires x == [] || (!IsWhitespace(x[0]) && !IsWhitespace(x[|x| - 1]))
    ensures Trim(x) == x
  {
    assert TrimStart(x) == x;
    assert TrimEnd(x) == x;
  }

  /** Unpadded text after one leading space trims back to itself. */
  lemma TrimSpaced(x: string)
    requires x != [] && !IsWhitespace(x[0]) && !IsWhitespace(x[|x| - 1])
    ensures Trim(" " + x) == x
  {
    assert (" " + x)[1..] == x;
    assert TrimStart(x) == x;
    assert TrimStart(" " + x) == x;
    assert TrimEnd(x) == x;
  }

  /** The helper's password prompt: the echo-off prefix, a space, then `Password:`. */
  const PromptLine := EchoOffPrefix + " " + PasswordPrompt

  lemma PromptLineAsks()
    ensures IsPasswordPrompt(PromptLine) && !IsSuccessLine(PromptLine)
    ensures Classify(PromptLine) == EchoOff(" " + PasswordPrompt)
  {
    Reassociate(EchoOffPrefix, " ", PasswordPrompt);
    StartsWithPrefix(EchoOffPrefix, " " + PasswordPrompt);
    PrefixCancels(EchoOffPrefix, Classify(PromptLine).prompt, " " + PasswordPrompt);
    TrimSpaced(PasswordPrompt);
  }

  // ---------------------------------------------------------------------
  // Lockout notices

  lemma FirstEvent(l0: string, l1: string, cookie: string)
    requires Classify(l0).TextInfo?
    ensures EventAt([l0, l1], 0, cookie) == (if LockoutOf(l0).Some? then [AuthorizationRetry(cookie, LockoutOf(l0))] else [])
  {
  }

  lemma SecondEvent(l0: string, l1: string, cookie: string)
    requires Classify(l1) == Failure
    ensures EventAt([l0, l1], 1, cookie) == [AuthorizationRetry(cookie, Some(LockoutOf(l0).GetOr(FallbackRetry)))]
  {
    assert [l0, l1][..1] == [l0];
    assert LastLockout([l0]) == LockoutOf(l0) by {
      assert [l0][..0] == [];
    }
  }

  lemma TwoEvents(l0: string, l1: string, cookie: string)
    requires !IsSuccessLine(l0) && !IsSuccessLine(l1)
    ensures EventsFrom([l0, l1], 0, cookie) == EventAt([l0, l1], 0, cookie) + EventAt([l0, l1], 1, cookie)
  {
    assert EventsFrom([l0, l1], 2, cookie) == [];
  }

  /** The events of an info line followed by a `FAILURE` line. */
  lemma InfoFailureEvents(l0: string, l1: string, info: string, cookie: string)
    requires Classify(l0) == TextInfo(info) && Classify(l1) == Failure
    ensures LockoutOf(l0).Some? ==> EventsFrom([l0, l1], 0, cookie) == [AuthorizationRetry(cookie, LockoutOf(l0)), AuthorizationRetry(cookie, LockoutOf(l0))]
    ensures LockoutOf(l0).None? ==> EventsFrom([l0, l1], 0, cookie) == [AuthorizationRetry(cookie, Some(FallbackRetry))]
  {
    FirstEvent(l0, l1, cookie);
    SecondEvent(l0, l1, cookie);
    TwoEvents(l0, l1, cookie);
  }

  lemma LockoutOfInfo(l0: string, info: string)
    requires Classify(l0) == TextInfo(info)
    ensures LockoutOf(l0) == if Contains(Trim(info), "minute") && Contains(Trim(info), "unlock") then Some(Trim(info)) else None
  {
  }

  /**
   * An info line followed by `FAILURE`: when the info text, trimmed,
   * mentions both `minute` and `unlock`, it is reported at once and again
   * with the failure; otherwise only the failure is reported, with the
   * fallback text. A notice that says how many minutes an account is
   * locked for without the word `unlock` therefore gets the fallback.
   */
  lemma InfoThenFailure(info: string, password: string, cookie: string)
    ensures var msg := Trim(info);
      Emitted(Converse([TextInfoPrefix + info, FailurePrefix], Eof, None, None, password, cookie).effects)
      == if Contains(msg, "minute") && Contains(msg, "unlock")
         then [AuthorizationRetry(cookie, Some(msg)), AuthorizationRetry(cookie, Some(msg))]
         else [AuthorizationRetry(cookie, Some(FallbackRetry))]
  {
    var l0 := TextInfoPrefix + info;
    ClassifyInfo(info);
    ClassifyFailure();
    ConversationEvents([l0, FailurePrefix], Eof, password, cookie);
    InfoFailureEvents(l0, FailurePrefix, info, cookie);
    LockoutOfInfo(l0, info);
  }

  // ---------------------------------------------------------------------
  // A whole call

  /** A prompt then `SUCCESS`: both lines are read and success is reported. */
  lemma PromptSuccessLines(l0: string, l1: string, cookie: string)
    requires !IsSuccessLine(l0) && IsSuccessLine(l1)
    ensures FirstSuccess([l0, l1]) == Some(1) && Processed([l0, l1]) == 2
    ensures [l0, l1][..Processed([l0, l1])] == [l0, l1]
  {
    assert [l0, l1][1..] == [l1];
    assert FirstSuccess([l1]) == Some(0);
  }

  lemma PromptSuccessCount(l0: string, l1: string)
    requires IsPasswordPrompt(l0) && IsSuccessLine(l1)
    ensures CountPrompts([l0, l1]) == 1
  {
    assert [l0, l1][1..] == [l1];
    assert [l1][1..] == [];
  }

  lemma PromptSuccessEvents(l0: string, l1: string, cookie: string)
    requires IsPasswordPrompt(l0) && IsSuccessLine(l1)
    ensures EventsFrom([l0, l1], 0, cookie) == [AuthorizationSucceeded(cookie)]
  {
    PromptQuiet(l0, l1, cookie);
    SuccessLast(l0, l1, cookie);
  }

  lemma PromptQuiet(l0: string, l1: string, cookie: string)
    requires IsPasswordPrompt(l0)
    ensures EventAt([l0, l1], 0, cookie) == []
  {
  }

  lemma SuccessLast(l0: string, l1: string, cookie: string)
    requires IsSuccessLine(l1)
    ensures EventsFrom([l0, l1], 1, cookie) == [AuthorizationSucceeded(cookie)]
  {
    assert EventAt([l0, l1], 1, cookie) == [AuthorizationSucceeded(cookie)];
  }

  /** One attempt against a helper socket that prompts once and reports success. */
  lemma PromptSuccessAttempt(env: AttemptEnv, l0: string, l1: string, user: string, password: string, cookie: string,
                             helperPath: string)
    requires env.socketUp && env.room.None? && env.lines == [l0, l1]
    requires IsPasswordPrompt(l0) && IsSuccessLine(l1)
    ensures var a := Attempt(env, user, password, cookie, helperPath);
      && a.stop == Authorized
      && Written(a.effects) == [user, Newline, cookie, Newline, password, Newline]
      && Emitted(a.effects) == [AuthorizationSucceeded(cookie)]
  {
    PromptSuccessLines(l0, l1, cookie);
    PromptSuccessCount(l0, l1);
    PromptSuccessEvents(l0, l1, cookie);
    HealthyAttempt(env, user, password, cookie, helperPath);
    assert Repeat([password, Newline], 1) == [password, Newline] by {
      assert Repeat([password, Newline], 0) == [];
    }
    FourThenTwo(user, Newline, cookie, Newline, password, Newline);
  }

  /** The loop: a foreign password is taken and dropped, then this cookie's password resolves the call. */
  lemma ForeignThenPassword(foreign: UserEvent, user: string, password: string, helpers: Helpers, cookie: string)
    requires foreign.Cookie() != cookie
    requires Attempt(helpers.env(0), user, password, cookie, helpers.path).stop == Authorized
    ensures var a := Attempt(helpers.env(0), user, password, cookie, helpers.path);
      EventLoop([foreign, ProvidedPassword(cookie, user, password)], false, helpers, cookie, 0)
      == Call([Receive(foreign), Receive(ProvidedPassword(cookie, user, password))] + a.effects, Ok)
  {
    var mine := ProvidedPassword(cookie, user, password);
    var inbox := [foreign, mine];
    var a := Attempt(helpers.env(0), user, password, cookie, helpers.path);
    ForeignStep(inbox, false, helpers, cookie, 0);
    assert inbox[1..] == [mine];
    PasswordStep([mine], false, helpers, cookie, 0);
    assert EventLoop([mine], false, helpers, cookie, 0) == Call([Receive(mine)] + a.effects, Ok);
    PairThen(Receive(foreign), Receive(mine), a.effects);
  }

  /** A call with a live consumer is its announcement followed by the event loop. */
  lemma BeginUnfold(consumer: Consumer, passwd: Identities.Passwd, helpers: Helpers, message: string, cookie: string)
    requires consumer.alive
    ensures BeginAuthentication(consumer, passwd, helpers, message, cookie, [])
         == Prepend([Emit(Started(cookie, message, []))], EventLoop(consumer.inbox, consumer.closed, helpers, cookie, 0))
  {
    assert Identities.ResolveNames([], passwd) == [];
  }

  /** A call whose loop takes two events and then succeeds with the effects `a`. */
  lemma AnnouncedCall(consumer: Consumer, passwd: Identities.Passwd, helpers: Helpers, message: string, cookie: string,
                      e0: UserEvent, e1: UserEvent, a: seq<Effect>, written: seq<string>, event: AgentEvent)
    requires consumer.alive
    requires EventLoop(consumer.inbox, consumer.closed, helpers, cookie, 0) == Call([Receive(e0), Receive(e1)] + a, Ok)
    requires Written(a) == written && Emitted(a) == [event]
    ensures var c := BeginAuthentication(consumer, passwd, helpers, message, cookie, []);
      && c.result == Ok
      && Written(c.effects) == written
      && Emitted(c.effects) == [Started(cookie, message, []), event]
  {
    BeginUnfold(consumer, passwd, helpers, message, cookie);
    ProjectionsAppend([Receive(e0), Receive(e1)], a);
    ProjectionsAppend([Emit(Started(cookie, message, []))], [Receive(e0), Receive(e1)] + a);
  }

  /** The loop of the example call: the foreign password is dropped and the attempt succeeds. */
  lemma ExampleLoop(helpers: Helpers, cookie: string, foreign: UserEvent, user: string, password: string,
                    l0: string, l1: string)
    requires foreign.Cookie() != cookie
    requires helpers.env(0) == AttemptEnv(true, false, [l0, l1], Eof, None)
    requires IsPasswordPrompt(l0) && IsSuccessLine(l1)
    ensures var a := Attempt(helpers.env(0), user, password, cookie, helpers.path);
      && EventLoop([foreign, ProvidedPassword(cookie, user, password)], false, helpers, cookie, 0)
         == Call([Receive(foreign), Receive(ProvidedPassword(cookie, user, password))] + a.effects, Ok)
      && Written(a.effects) == [user, Newline, cookie, Newline, password, Newline]
      && Emitted(a.effects) == [AuthorizationSucceeded(cookie)]
  {
    PromptSuccessAttempt(helpers.env(0), l0, l1, user, password, cookie, helpers.path);
    ForeignThenPassword(foreign, user, password, helpers, cookie);
  }

  /**
   * A call whose consumer first sends a password for another request,
   * then the user's password for this one, against a helper socket that
   * prompts once and reports success: the foreign password is taken and
   * dropped, the helper is sent the user, the cookie and the password,
   * each on its own line, and the call succeeds after announcing the
   * request and reporting success.
   */
  lemma PromptingHelperCall(helpers: Helpers, passwd: Identities.Passwd, message: string, cookie: string,
                            foreign: UserEvent, user: string, password: string, l0: string, l1: string)
    requires foreign.Cookie() != cookie
    requires helpers.env(0) == AttemptEnv(true, false, [l0, l1], Eof, None)
    requires IsPasswordPrompt(l0) && IsSuccessLine(l1)
    ensures var consumer := Consumer(true, [foreign, ProvidedPassword(cookie, user, password)], false);
      var c := BeginAuthentication(consumer, passwd, helpers, message, cookie, []);
      && c.result == Ok
      && Written(c.effects) == [user, Newline, cookie, Newline, password, Newline]
      && Emitted(c.effects) == [Started(cookie, message, []), AuthorizationSucceeded(cookie)]
  {
    var mine := ProvidedPassword(cookie, user, password);
    var a := Attempt(helpers.env(0), user, password, cookie, helpers.path);
    ExampleLoop(helpers, cookie, foreign, user, password, l0, l1);
    AnnouncedCall(Consumer(true, [foreign, mine], false), passwd, helpers, message, cookie, foreign, mine, a.effects,
                  [user, Newline, cookie, Newline, password, Newline], AuthorizationSucceeded(cookie));
  }

  /** The same call with the helper's actual prompt and success lines. */
  lemma ExampleCall(helpers: Helpers, passwd: Identities.Passwd, message: string, cookie: string,
                    foreign: UserEvent, user: string, password: string)
    requires foreign.Cookie() != cookie
    requires helpers.env(0) == AttemptEnv(true, false, [PromptLine, SuccessPrefix], Eof, None)
    ensures var consumer := Consumer(true, [foreign, ProvidedPassword(cookie, user, password)], false);
      var c := BeginAuthentication(consumer, passwd, helpers, message, cookie, []);
      && c.result == Ok
      && Written(c.effects) == [user, Newline, cookie, Newline, password, Newline]
      && Emitted(c.effects) == [Started(cookie, message, []), AuthorizationSucceeded(cookie)]
  {
    PromptLineAsks();
    ClassifySuccess();
    PromptingHelperCall(helpers, passwd, message, cookie, foreign, user, password, PromptLine, SuccessPrefix);
  }
}

=== FILE: session.dfy ===
/**
 * The prompt window's session state (src/state.rs): the cookie being
 * authenticated and the signal handlers that belong to it.
 * `start_authentication` connects four handlers that capture the cookie;
 * `end_authentication` for that cookie hides the window, disconnects
 * them and forgets the cookie.
 *
 * The widgets are modelled as the data the handlers touch: whether the
 * window is visible, the password entry's text, the user selected in the
 * drop-down, and the connected handlers in connection order, each under
 * the id GTK gave it.
 */
module Session {
  import opened Wrappers
  import opened Events

  /** The signals the session connects to. */
  datatype Signal =
    | HideOnCloseNotify   // the window's `hide-on-close` property changed
    | CloseRequest        // the window was asked to close
    | CancelClicked
    | ConfirmClicked

  /** A connected closure: which signal it serves and the cookie it captured. */
  datatype Handler = Handler(signal: Signal, cookie: string)

  datatype Connection = Connection(id: nat, handler: Handler)

  datatype Widgets = Widgets(
    windowVisible: bool,
    passwordText: string,
    selectedUser: Option<string>,
    connections: seq<Connection>,
    nextId: nat)

  /** The ids of the four handlers of one session. */
  datatype ComponentSignals = ComponentSignals(
    windowClose: nat, windowCloseRequest: nat, cancelButtonClicked: nat, confirmButtonClicked: nat)
  {
    function Ids(): set<nat> {
      {windowClose, windowCloseRequest, cancelButtonClicked, confirmButtonClicked}
    }
  }

  datatype State = State(cookie: Option<string>, signals: Option<ComponentSignals>, widgets: Widgets)

  // ---------------------------------------------------------------------
  // Lifecycle

  /** `State::new`: no session yet. */
  function New(widgets: Widgets): (st: State)
    ensures st.cookie.None? && st.signals.None?
    ensures st.widgets == widgets
  {
    State(None, None, widgets)
  }

  /** Connect `h` under the next free id. */
  function Connect(w: Widgets, h: Handler): (r: (Widgets, nat))
    ensures r.1 == w.nextId && r.0.nextId == w.nextId + 1
    ensures r.0.connections == w.connections + [Connection(w.nextId, h)]
    ensures r.0.windowVisible == w.windowVisible && r.0.passwordText == w.passwordText
    ensures r.0.selectedUser == w.selectedUser
  {
    (w.(connections := w.connections + [Connection(w.nextId, h)], nextId := w.nextId + 1), w.nextId)
  }

  /**
   * `start_authentication`: remember the cookie and connect the four
   * handlers, each capturing it. Handlers connected earlier stay connected.
   * It always reports `true`.
   */
  function Start(st: State, cookie: string): (r: (State, bool))
    ensures r.1
    ensures r.0.cookie == Some(cookie) && r.0.signals.Some?
    ensures r.0.widgets.connections == st.widgets.connections + [
      Connection(st.widgets.nextId, Handler(HideOnCloseNotify, cookie)),
      Connection(st.widgets.nextId + 1, Handler(CloseRequest, cookie)),
      Connection(st.widgets.nextId + 2, Handler(CancelClicked, cookie)),
      Connection(st.widgets.nextId + 3, Handler(ConfirmClicked, cookie))]
    ensures r.0.signals.value == ComponentSignals(
      st.widgets.nextId, st.widgets.nextId + 1, st.widgets.nextId + 2, st.widgets.nextId + 3)
    ensures r.0.widgets.nextId == st.widgets.nextId + 4
    ensures r.0.widgets.windowVisible == st.widgets.windowVisible
    ensures r.0.widgets.passwordText == st.widgets.passwordText
    ensures r.0.widgets.selectedUser == st.widgets.selectedUser
  {
    var (w1, windowClose) := Connect(st.widgets, Handler(HideOnCloseNotify, cookie));
    var (w2, windowCloseRequest) := Connect(w1, Handler(CloseRequest, cookie));
    var (w3, cancelButtonClicked) := Connect(w2, Handler(CancelClicked, cookie));
    var (w4, confirmButtonClicked) := Connect(w3, Handler(ConfirmClicked, cookie));
    var signals := ComponentSignals(windowClose, windowCloseRequest, cancelButtonClicked, confirmButtonClicked);
    (State(Some(cookie), Some(signals), w4), true)
  }

  /** The connections whose id is not in `ids`, in order. */
  function Disconnect(conns: seq<Connection>, ids: set<nat>): (r: seq<Connection>)
    ensures forall c :: c in r <==> c in conns && c.id !in ids
  {
    if conns == [] then []
    else (if conns[0].id in ids then [] else [conns[0]]) + Disconnect(conns[1..], ids)
  }

  /**
   * `end_authentication`: for the current cookie, hide the window,
   * disconnect the session's handlers and forget the cookie; for any other
   * cookie, or with no session, do nothing.
   */
  function End(st: State, cookie: string): (r: State)
    ensures st.cookie != Some(cookie) ==> r == st
    ensures st.cookie == Some(cookie) ==> r.cookie.None? && r.signals.None? && !r.widgets.windowVisible
    ensures st.cookie == Some(cookie) && st.signals.Some? ==>
      forall c :: c in r.widgets.connections <==> c in st.widgets.connections && c.id !in st.signals.value.Ids()
    ensures r.widgets.passwordText == st.widgets.passwordText && r.widgets.selectedUser == st.widgets.selectedUser
  {
    if st.cookie != Some(cookie) then st
    else
      var w := st.widgets.(windowVisible := false);
      var w' := match st.signals
        case Some(s) => w.(connections := Disconnect(w.connections, s.Ids()))
        case None => w;
      State(None, None, w')
  }

  // ---------------------------------------------------------------------
  // Handlers

  /** What firing a signal leads to: the widgets after it and the events sent, or a panic. */
  datatype Fired = Fired(widgets: Widgets, sent: seq<UserEvent>) | Panicked

  /**
   * One handler. Every handler sends its event (panicking when no
   * receiver is listening) and clears the password entry; the cancel and
   * confirm buttons also hide the window. Confirm sends the entered text
   * and the selected user, panicking when nothing is selected.
   */
  function RunHandler(h: Handler, w: Widgets, listening: bool): (r: Fired)
    ensures r.Fired? ==> |r.sent| == 1 && r.sent[0].Cookie() == h.cookie
    ensures r.Fired? ==> r.widgets.passwordText == [] && r.widgets.connections == w.connections
    ensures r.Fired? && h.signal == ConfirmClicked ==>
      (w.selectedUser.Some? && r.sent[0] == ProvidedPassword(h.cookie, w.selectedUser.value, w.passwordText))
    ensures r.Fired? && h.signal != ConfirmClicked ==> r.sent[0] == UserCanceled(h.cookie)
    ensures r.Panicked? <==> !listening || (h.signal == ConfirmClicked && w.selectedUser.None?)
  {
    match h.signal
    case ConfirmClicked =>
      if w.selectedUser.None? || !listening then Panicked
      else Fired(w.(passwordText := [], windowVisible := false),
                 [ProvidedPassword(h.cookie, w.selectedUser.value, w.passwordText)])
    case CancelClicked =>
      if !listening then Panicked
      else Fired(w.(passwordText := [], windowVisible := false), [UserCanceled(h.cookie)])
    case _ =>
      if !listening then Panicked
      else Fired(w.(passwordText := []), [UserCanceled(h.cookie)])
  }

  /** Run `handlers` in order on `w`, stopping at a panic. */
  function RunHandlers(handlers: seq<Handler>, w: Widgets, listening: bool): (r: Fired)
    ensures r.Fired? ==> r.widgets.connections == w.connections
  {
    if handlers == [] then Fired(w, [])
    else
      match RunHandler(handlers[0], w, listening)
      case Panicked => Panicked
      case Fired(w1, sent1) =>
        match RunHandlers(handlers[1..], w1, listening)
        case Panicked => Panicked
        case Fired(w2, sent2) => Fired(w2, sent1 + sent2)
  }

  /** The handlers connected to `sig`, in connection order. */
  function HandlersFor(conns: seq<Connection>, sig: Signal): (r: seq<Handler>)
    ensures |r| <= |conns|
  {
    if conns == [] then []
    else (if conns[0].handler.signal == sig then [conns[0].handler] else []) + HandlersFor(conns[1..], sig)
  }

  /** The user triggers `sig`: every handler connected to it runs, in connection order. */
  function Fire(st: State, sig: Signal, listening: bool): (r: Fired)
    ensures r.Fired? ==> r.widgets.connections == st.widgets.connections
  {
    RunHandlers(HandlersFor(st.widgets.connections, sig), st.widgets, listening)
  }
}

=== FILE: session_facts.dfy ===
/**
 * The session lifecycle kept tidy: when start and end are paired, the
 * connected handlers are exactly the current session's four, each firing
 * sends one event stamped with the session's cookie, and after the
 * session ends nothing is sent at all. Without the pairing, handlers of
 * an earlier session stay connected and keep sending for its cookie.
 */
module SessionFacts {
  import opened Wrappers
  import opened Events
  import opened Session

  /** The four connections of a session with handler ids `s` and cookie `cookie`, in connection order. */
  function SessionConnections(s: ComponentSignals, cookie: string): seq<Connection> {
    [Connection(s.windowClose, Handler(HideOnCloseNotify, cookie)),
     Connection(s.windowCloseRequest, Handler(CloseRequest, cookie)),
     Connection(s.cancelButtonClicked, Handler(CancelClicked, cookie)),
     Connection(s.confirmButtonClicked, Handler(ConfirmClicked, cookie))]
  }

  /**
   * No session and no handlers, or a session whose handlers are exactly
   * its four, stamped with its cookie.
   */
  predicate Tidy(st: State) {
    match (st.cookie, st.signals)
    case (None, None) => st.widgets.connections == []
    case (Some(c), Some(s)) => st.widgets.connections == SessionConnections(s, c)
    case _ => false
  }

  // ---------------------------------------------------------------------
  // The invariant

  lemma NewTidy(widgets: Widgets)
    requires widgets.connections == []
    ensures Tidy(New(widgets))
  {
  }

  /** Starting a session when none is active (the pairing state.rs asks its callers for) keeps the state tidy. */
  lemma StartTidy(st: State, cookie: string)
    requires Tidy(st) && st.cookie.None?
    ensures Tidy(Start(st, cookie).0)
  {
    assert st.widgets.connections == [];
  }

  lemma DisconnectAll(s: ComponentSignals, cookie: string)
    ensures Disconnect(SessionConnections(s, cookie), s.Ids()) == []
  {
    DisconnectCovered(SessionConnections(s, cookie), s.Ids());
  }

  lemma {:induction false} DisconnectCovered(conns: seq<Connection>, ids: set<nat>)
    requires forall i :: 0 <= i < |conns| ==> conns[i].id in ids
    ensures Disconnect(conns, ids) == []
  {
    if conns != [] {
      DisconnectCovered(conns[1..], ids);
    }
  }

  /** Ending any cookie's session keeps the state tidy. */
  lemma EndTidy(st: State, cookie: string)
    requires Tidy(st)
    ensures Tidy(End(st, cookie))
  {
    if st.cookie == Some(cookie) {
      DisconnectAll(st.signals.value, cookie);
    }
  }

  /** Firing a signal changes no connection, so it keeps the state tidy. */
  lemma FireTidy(st: State, sig: Signal, listening: bool)
    requires Tidy(st) && Fire(st, sig, listening).Fired?
    ensures Tidy(st.(widgets := Fire(st, sig, listening).widgets))
  {
  }

  // ---------------------------------------------------------------------
  // What the handlers send

  lemma HandlersOfSession(s: ComponentSignals, cookie: string, sig: Signal)
    ensures HandlersFor(SessionConnections(s, cookie), sig) == [Handler(sig, cookie)]
  {
    var conns := SessionConnections(s, cookie);
    assert conns == [conns[0]] + [conns[1]] + [conns[2]] + [conns[3]];
    HandlersForAppend([conns[0]] + [conns[1]] + [conns[2]], [conns[3]], sig);
    HandlersForAppend([conns[0]] + [conns[1]], [conns[2]], sig);
    HandlersForAppend([conns[0]], [conns[1]], sig);
    HandlersForSingle(conns[0], sig);
    HandlersForSingle(conns[1], sig);
    HandlersForSingle(conns[2], sig);
    HandlersForSingle(conns[3], sig);
  }

  lemma HandlersForSingle(c: Connection, sig: Signal)
    ensures HandlersFor([c], sig) == if c.handler.signal == sig then [c.handler] else []
  {
    assert [c][1..] == [];
  }

  lemma RunSingle(h: Handler, w: Widgets, listening: bool)
    ensures RunHandlers([h], w, listening) == RunHandler(h, w, listening)
  {
    assert [h][1..] == [];
    var r := RunHandler(h, w, listening);
    if r.Fired? {
      assert r.sent + [] == r.sent;
    }
  }

  /**
   * In a tidy session with cookie `c`, firing a signal runs that signal's
   * one handler: confirm sends the selected user and the entered text,
   * every other signal sends a cancel, each stamped with `c`; the entry is
   * cleared, and both buttons hide the window. It panics when nobody
   * listens, or on confirm with no user selected.
   */
  lemma FireInSession(st: State, sig: Signal, listening: bool)
    requires Tidy(st) && st.cookie.Some?
    ensures var r := Fire(st, sig, listening);
      var w := st.widgets;
      && (r.Panicked? <==> !listening || (sig == ConfirmClicked && w.selectedUser.None?))
      && (r.Fired? ==>
            && r.sent == [if sig == ConfirmClicked then ProvidedPassword(st.cookie.value, w.selectedUser.value, w.passwordText)
                          else UserCanceled(st.cookie.value)]
            && r.widgets.passwordText == []
            && (sig == ConfirmClicked || sig == CancelClicked ==> !r.widgets.windowVisible))
  {
    HandlersOfSession(st.signals.value, st.cookie.value, sig);
    RunSingle(Handler(sig, st.cookie.value), st.widgets, listening);
  }

  /** With no session, firing a signal runs nothing and sends nothing. */
  lemma FireIdle(st: State, sig: Signal, listening: bool)
    requires Tidy(st) && st.cookie.None?
    ensures Fire(st, sig, listening) == Fired(st.widgets, [])
  {
  }

  /** Once a session has been started and ended, no signal sends anything. */
  lemma QuietAfterEnd(st: State, cookie: string, sig: Signal, listening: bool)
    requires Tidy(st) && st.cookie.None?
    ensures var ended := End(Start(st, cookie).0, cookie);
      ended.cookie.None? && Fire(ended, sig, listening) == Fired(ended.widgets, [])
  {
    StartTidy(st, cookie);
    EndTidy(Start(st, cookie).0, cookie);
    FireIdle(End(Start(st, cookie).0, cookie), sig, listening);
  }

  /** Ending twice is ending once. */
  lemma EndIdempotent(st: State, cookie: string)
    ensures End(End(st, cookie), cookie) == End(st, cookie)
  {
  }

  // ---------------------------------------------------------------------
  // Unpaired starts

  /** Two unpaired starts: both sessions' handlers are connected, under different ids. */
  lemma TwoSessions(st: State, first: string, second: string)
    requires Tidy(st) && st.cookie.None?
    ensures var once := Start(st, first).0;
      var twice := Start(once, second).0;
      && Tidy(once)
      && twice.widgets.connections
         == SessionConnections(once.signals.value, first) + SessionConnections(twice.signals.value, second)
      && (forall i :: 0 <= i < 4 ==> SessionConnections(once.signals.value, first)[i].id !in twice.signals.value.Ids())
  {
    var once := Start(st, first).0;
    StartTidy(st, first);
    StartAppends(once, second);
    SessionIds(once.signals.value, first);
  }

  /** A start appends the new session's four connections. */
  lemma StartAppends(st: State, cookie: string)
    ensures var st' := Start(st, cookie).0;
      st'.widgets.connections == st.widgets.connections + SessionConnections(st'.signals.value, cookie)
  {
  }

  lemma SessionIds(s: ComponentSignals, cookie: string)
    ensures forall i :: 0 <= i < 4 ==> SessionConnections(s, cookie)[i].id in s.Ids()
  {
  }

  lemma RunTwoConfirms(first: string, second: string, w: Widgets)
    requires w.selectedUser.Some?
    ensures RunHandlers([Handler(ConfirmClicked, first), Handler(ConfirmClicked, second)], w, true)
         == Fired(w.(passwordText := [], windowVisible := false),
                  [ProvidedPassword(first, w.selectedUser.value, w.passwordText),
                   ProvidedPassword(second, w.selectedUser.value, [])])
  {
    var hs := [Handler(ConfirmClicked, first), Handler(ConfirmClicked, second)];
    assert hs[1..] == [Handler(ConfirmClicked, second)];
    RunSingle(Handler(ConfirmClicked, second), w.(passwordText := [], windowVisible := false), true);
  }

  /**
   * Starting a second session without ending the first leaves the first
   * one's handlers connected: a confirm click sends the password for the
   * earlier cookie first, then, the entry now cleared, an empty password
   * for the later one.
   */
  lemma StaleConfirm(st: State, first: string, second: string, user: string)
    requires Tidy(st) && st.cookie.None? && st.widgets.selectedUser == Some(user)
    ensures var twice := Start(Start(st, first).0, second).0;
      Fire(twice, ConfirmClicked, true).Fired? &&
      Fire(twice, ConfirmClicked, true).sent
      == [ProvidedPassword(first, user, st.widgets.passwordText), ProvidedPassword(second, user, [])]
  {
    var once := Start(st, first).0;
    var twice := Start(once, second).0;
    TwoSessions(st, first, second);
    var earlier := SessionConnections(once.signals.value, first);
    var later := SessionConnections(twice.signals.value, second);
    HandlersForAppend(earlier, later, ConfirmClicked);
    HandlersOfSession(once.signals.value, first, ConfirmClicked);
    HandlersOfSession(twice.signals.value, second, ConfirmClicked);
    assert [Handler(ConfirmClicked, first)] + [Handler(ConfirmClicked, second)]
        == [Handler(ConfirmClicked, first), Handler(ConfirmClicked, second)];
    RunTwoConfirms(first, second, twice.widgets);
  }

  lemma EndSecondLeavesFirst(st: State, first: string, second: string)
    requires Tidy(st) && st.cookie.None?
    ensures var once := Start(st, first).0;
      var twice := Start(once, second).0;
      End(twice, second).widgets.connections == SessionConnections(once.signals.value, first)
  {
    var once := Start(st, first).0;
    var twice := Start(once, second).0;
    TwoSessions(st, first, second);
    var earlier := SessionConnections(once.signals.value, first);
    var later := SessionConnections(twice.signals.value, second);
    DisconnectAppend(earlier, later, twice.signals.value.Ids());
    DisconnectAll(twice.signals.value, second);
    DisconnectNone(earlier, twice.signals.value.Ids());
  }

  /**
   * After an unpaired second session ends, no session is active, yet a
   * cancel click still sends a cancel for the first session's cookie.
   */
  lemma StaleCancel(st: State, first: string, second: string)
    requires Tidy(st) && st.cookie.None?
    ensures var ended := End(Start(Start(st, first).0, second).0, second);
      && ended.cookie.None?
      && Fire(ended, CancelClicked, true).Fired?
      && Fire(ended, CancelClicked, true).sent == [UserCanceled(first)]
  {
    var once := Start(st, first).0;
    var ended := End(Start(once, second).0, second);
    EndSecondLeavesFirst(st, first, second);
    HandlersOfSession(once.signals.value, first, CancelClicked);
    RunSingle(Handler(CancelClicked, first), ended.widgets, true);
  }

  lemma {:induction false} HandlersForAppend(a: seq<Connection>, b: seq<Connection>, sig: Signal)
    ensures HandlersFor(a + b, sig) == HandlersFor(a, sig) + HandlersFor(b, sig)
  {
    if a == [] {
      assert a + b == b;
    } else {
      var head := if a[0].handler.signal == sig then [a[0].handler] else [];
      assert (a + b)[0] == a[0];
      assert (a + b)[1..] == a[1..] + b;
      HandlersForAppend(a[1..], b, sig);
      assert HandlersFor(a + b, sig) == head + HandlersFor(a[1..] + b, sig);
      Reassociate(head, HandlersFor(a[1..], sig), HandlersFor(b, sig));
    }
  }

  lemma DisconnectUnfold(conns: seq<Connection>, ids: set<nat>)
    requires conns != []
    ensures Disconnect(conns, ids) == (if conns[0].id in ids then [] else [conns[0]]) + Disconnect(conns[1..], ids)
  {
  }

  lemma {:induction false} DisconnectAppend(a: seq<Connection>, b: seq<Connection>, ids: set<nat>)
    ensures Disconnect(a + b, ids) == Disconnect(a, ids) + Disconnect(b, ids)
  {
    if a == [] {
      assert a + b == b;
    } else {
      assert (a + b)[0] == a[0] && (a + b)[1..] == a[1..] + b;
      DisconnectUnfold(a + b, ids);
      DisconnectUnfold(a, ids);
      DisconnectAppend(a[1..], b, ids);
      Reassociate(if a[0].id in ids then [] else [a[0]], Disconnect(a[1..], ids), Disconnect(b, ids));
    }
  }

  lemma {:induction false} DisconnectNone(conns: seq<Connection>, ids: set<nat>)
    requires forall i :: 0 <= i < |conns| ==> conns[i].id !in ids
    ensures Disconnect(conns, ids) == conns
  {
    if conns != [] {
      DisconnectNone(conns[1..], ids);
      assert [conns[0]] + conns[1..] == conns;
    }
  }
}

=== FILE: text.dfy ===
/**
 * The handful of Rust `str` operations the agent uses on helper output:
 * `trim`, `starts_with`, `strip_prefix` and `contains`. Strings are
 * sequences of Unicode scalar values, as Rust `String`s are.
 */
module Text {
  import opened Wrappers

  /** Rust's `char::is_whitespace`: the Unicode `White_Space` property. */
  predicate IsWhitespace(c: char) {
    || ('\t' <= c <= '\r')
    || c == ' '
    || c == '\U{85}'
    || c == '\U{A0}'
    || c == '\U{1680}'
    || ('\U{2000}' <= c <= '\U{200A}')
    || c == '\U{2028}'
    || c == '\U{2029}'
    || c == '\U{202F}'
    || c == '\U{205F}'
    || c == '\U{3000}'
  }

  predicate AllWhitespace(s: string) {
    forall k :: 0 <= k < |s| ==> IsWhitespace(s[k])
  }

  /** Rust's `str::trim_start`. */
  function TrimStart(s: string): (r: string)
    ensures |r| <= |s| && r == s[|s| - |r|..]
    ensures AllWhitespace(s[..|s| - |r|])
    ensures r == [] || !IsWhitespace(r[0])
  {
    if |s| > 0 && IsWhitespace(s[0]) then
      var r := TrimStart(s[1..]);
      TrimStartStep(s, r);
      r
    else s
  }

  /** Rust's `str::trim_end`. */
  function TrimEnd(s: string): (r: string)
    ensures |r| <= |s| && r == s[..|r|]
    ensures AllWhitespace(s[|r|..])
    ensures r == [] || !IsWhitespace(r[|r| - 1])
  {
    if |s| > 0 && IsWhitespace(s[|s| - 1]) then
      var r := TrimEnd(s[..|s| - 1]);
      TrimEndStep(s, r);
      r
    else s
  }

  /** Trimming the start of `s` after a leading whitespace character. */
  lemma TrimStartStep(s: string, r: string)
    requires |s| > 0 && IsWhitespace(s[0])
    requires |r| <= |s| - 1 && r == s[1..][|s| - 1 - |r|..] && AllWhitespace(s[1..][..|s| - 1 - |r|])
    ensures r == s[|s| - |r|..] && AllWhitespace(s[..|s| - |r|])
  {
    var t := s[1..];
    assert s[..|s| - |r|] == [s[0]] + t[..|t| - |r|];
    AllWhitespaceAppend([s[0]], t[..|t| - |r|]);
  }

  /** Trimming the end of `s` before a trailing whitespace character. */
  lemma TrimEndStep(s: string, r: string)
    requires |s| > 0 && IsWhitespace(s[|s| - 1])
    requires |r| <= |s| - 1 && r == s[..|s| - 1][..|r|] && AllWhitespace(s[..|s| - 1][|r|..])
    ensures r == s[..|r|] && AllWhitespace(s[|r|..])
  {
    var t := s[..|s| - 1];
    assert s[|r|..] == t[|r|..] + [s[|s| - 1]];
    AllWhitespaceAppend(t[|r|..], [s[|s| - 1]]);
  }

  lemma AllWhitespaceAppend(x: string, y: string)
    requires AllWhitespace(x) && AllWhitespace(y)
    ensures AllWhitespace(x + y)
  {
    assert forall k :: 0 <= k < |x + y| ==> (x + y)[k] == if k < |x| then x[k] else y[k - |x|];
  }

  /**
   * Rust's `str::trim`: `s` is the trimmed text with whitespace only
   * around it, and the trimmed text neither starts nor ends with whitespace.
   */
  function Trim(s: string): (r: string)
    ensures exists lead: nat :: Framed(s, lead, r)
    ensures r == [] || (!IsWhitespace(r[0]) && !IsWhitespace(r[|r| - 1]))
  {
    var a := TrimStart(s);
    var r := TrimEnd(a);
    TrimsFrame(s, a, r);
    TrimsEnds(a, r);
    r
  }

  /** Cutting trailing whitespace from text that starts with none leaves text with none at either end. */
  lemma TrimsEnds(a: string, r: string)
    requires a == [] || !IsWhitespace(a[0])
    requires |r| <= |a| && r == a[..|r|] && (r == [] || !IsWhitespace(r[|r| - 1]))
    ensures r == [] || (!IsWhitespace(r[0]) && !IsWhitespace(r[|r| - 1]))
  {
    if r != [] {
      assert r[0] == a[0];
    }
  }

  /** Whitespace cut from both ends of `s` frames what is left. */
  lemma TrimsFrame(s: string, a: string, r: string)
    requires |a| <= |s| && a == s[|s| - |a|..] && AllWhitespace(s[..|s| - |a|])
    requires |r| <= |a| && r == a[..|r|] && AllWhitespace(a[|r|..])
    ensures exists lead: nat :: Framed(s, lead, r)
  {
    var lead := |s| - |a|;
    assert s[lead..lead + |r|] == a[..|r|];
    assert s[lead + |r|..] == a[|r|..];
    assert Framed(s, lead, r);
  }

  /** `s` is `r` with whitespace `s[..lead]` before it and whitespace after it. */
  predicate Framed(s: string, lead: nat, r: string) {
    && lead + |r| <= |s|
    && s[lead..lead + |r|] == r
    && AllWhitespace(s[..lead])
    && AllWhitespace(s[lead + |r|..])
  }

  /** Trimming twice is trimming once. */
  lemma TrimIdempotent(s: string)
    ensures Trim(Trim(s)) == Trim(s)
  {
    var r := Trim(s);
    assert TrimStart(r) == r;
    assert TrimEnd(r) == r;
  }

  /** Rust's `str::starts_with` for a string pattern. */
  predicate StartsWith(s: string, prefix: string) {
    |prefix| <= |s| && s[..|prefix|] == prefix
  }

  /** Rust's `str::strip_prefix`: the rest of `s` after `prefix`, if `s` starts with it. */
  function StripPrefix(s: string, prefix: string): (r: Option<string>)
    ensures r.Some? <==> StartsWith(s, prefix)
    ensures r.Some? ==> s == prefix + r.value
  {
    if StartsWith(s, prefix) then Some(s[|prefix|..]) else None
  }

  /** Rust's `str::contains` for a string pattern, scanning from the left. */
  function Contains(s: string, pattern: string): (b: bool)
    ensures b ==> |pattern| <= |s|
  {
    if StartsWith(s, pattern) then true
    else if |s| == 0 then false
    else Contains(s[1..], pattern)
  }

  /** `pattern` occurs in `s` at `i`. */
  predicate OccursAt(s: string, pattern: string, i: nat) {
    i <= |s| && StartsWith(s[i..], pattern)
  }

  /** `Contains` holds exactly when the pattern occurs at some position. */
  lemma {:induction false} ContainsIffOccurs(s: string, pattern: string)
    ensures Contains(s, pattern) <==> exists i: nat :: OccursAt(s, pattern, i)
  {
    if StartsWith(s, pattern) {
      assert OccursAt(s, pattern, 0);
    } else if |s| == 0 {
      assert forall i: nat :: !OccursAt(s, pattern, i);
    } else {
      ContainsIffOccurs(s[1..], pattern);
      if Contains(s[1..], pattern) {
        var i: nat :| OccursAt(s[1..], pattern, i);
        assert s[1..][i..] == s[i + 1..];
        assert OccursAt(s, pattern, i + 1);
      } else {
        forall i: nat | OccursAt(s, pattern, i)
          ensures false
        {
          if i > 0 {
            assert s[1..][i - 1..] == s[i..];
            assert OccursAt(s[1..], pattern, i - 1);
          }
        }
      }
    }
  }
}

=== FILE: wrappers.dfy ===
/** Optional values, as Rust's `Option`. */
module Wrappers {

  datatype Option<+T> = None | Some(value: T) {

    /** The wrapped value, or `default` when there is none (Rust's `unwrap_or`). */
    function GetOr(default: T): (r: T)
      ensures Some? ==> r == value
      ensures None? ==> r == default
    {
      match this
      case Some(v) => v
      case None => default
    }
  }
}
